=== FILE: README.md ===
# Trading-agent tools in Dafny

A model of the decision logic inside the command-line tools of a trading
agent for a binary prediction-market exchange. The tools are:

- a configuration loader;
- market analysis;
- cash-out to the owner's wallet;
- P&L tracking;
- order and cancel signing;
- order placement;
- vault and exchange actions;
- a pre-flight readiness check.

Each tool's `main` is a pure function here. The HTTP replies, chain reads,
the clock, address checksumming, key derivation and signing are its
parameters. An HTTP request that raised is `Reply.Raised`, and a reply is
`Responded(status, body)`.

Prices are integer basis points, where 10000 is one dollar. Amounts are
raw six-decimal USDC units. Command-line decimals are exact reals, turned
into integers with Python's `int()`, which truncates toward zero
(`Units.Trunc`).

Modules, one per file:

| file | module | tool |
|---|---|---|
| `base.dfy` | `Base` | `Option`, `Result`, `Reply`, Python truthiness, sums |
| `text.dfy` | `Text` | `str.strip`, `str(n)`, `int(s)`, `float(s)`, `partition`, `join` |
| `units.dfy` | `Units` | basis-point and raw-unit conversions |
| `config.dfy` | `Config` | `tools/_config.py` |
| `market_analysis.dfy` | `MarketAnalysis` | `tools/market_analysis.py` |
| `cashout.dfy` | `Cashout` | `tools/cashout.py` |
| `pnl_tracker.dfy` | `PnlTracker` | `tools/pnl_tracker.py` |
| `signing.dfy` | `Signing` | `tools/sign_order.py` |
| `place_order.dfy` | `PlaceOrder` | `tools/place_order.py` |
| `vault_ops.dfy` | `VaultOps` | `tools/vault_ops.py` |
| `ready_check.dfy` | `ReadyCheck` | `tools/ready_check.py` |

Three behaviours of the code are modelled as written, though the prose
around them suggests otherwise:

- `cashout.py` reads `WITHDRAW_TO` from the process environment only. Its
  error message tells the user to put it in `agent.env`, but `load_config`
  does not copy that file into the environment.
- `load_config` picks the network preset from the process environment's
  `NETWORK` alone. The reported `NETWORK` follows every layer. This is
  stated by `Config.AgentNetworkKeepsTestnetPreset`.
- `sign_order.py` does not range-check the price, while `place_order.py`
  does. This is stated by `Signing.SignsOutOfRangePrice`.

## Model

| member | source | states |
|---|---|---|
| Text.StripShape | tools/_config.py:38 | `strip()` removes only whitespace, and only from the two ends |
| Text.StripIdempotent | tools/_config.py:38 | stripping a stripped line changes nothing |
| Text.IntRoundTrip | tools/sign_order.py:74 | `int(str(i)) == i` for every integer |
| Config.ParseEnvLine | tools/_config.py:38-44 | a line yields an entry exactly when, stripped, it is non-blank, not a `#` comment and contains `=`; the key has no `=`, and key and value are stripped |
| Config.EnvLineRoundTrip | tools/_config.py:43-44 | a `KEY=VALUE` line with a stripped key and value parses back to that key and value, even when the value contains `=` |
| Config.ParseEnvLines | tools/_config.py:35-45 | the line-by-line loop yields the fold of every line's entry |
| Config.EnvFileKeys | tools/_config.py:37-44 | a key is in the parsed file exactly when some kept line assigns it |
| Config.EnvFileLastWins | tools/_config.py:44 | when a key is assigned several times, the last assignment wins |
| Config.FetchExchangeConfig | tools/_config.py:56-80 | only the six known keys; `{}` on a non-200, raised or non-object reply or a `null` contracts field; otherwise each key is present iff its field is truthy and holds that field's value, the chain id written so that `int()` reads it back |
| Config.Preset | tools/_config.py:86-87 | a known network's preset, and the testnet preset for any other name |
| Config.LookupFirstHolder | tools/_config.py:107-108 | `get` returns the value from the first layer holding the key, else the default |
| Config.TextSettingPrecedence | tools/_config.py:107-119 | every text setting comes from the first of env, agent file, config file, remote service and preset that holds it, else its own default |
| Config.ExchangeUrlPrecedence | tools/_config.py:99-102 | `EXCHANGE_URL` comes from env, agent file, config file, else `http://localhost:3002`; remote and preset are never consulted |
| Config.LoadConfig | tools/_config.py:83-125 | loading fails on the chain id first and succeeds iff the chain id and all five limits parse; the exchange URL is the locally resolved one the remote fetch used; each other setting is `get` over env, agent file, config file, remote service and preset, with its own default |
| Config.DefaultLimits | tools/_config.py:120-124 | unset limits load as 50, 5, 25, 70 and 20, and loading then fails only on an unreadable chain id |
| Config.UnknownNetworkUsesTestnet | tools/_config.py:86-87 | an unrecognised `NETWORK` gives chain 10143 and the testnet RPC endpoint when nothing else sets them |
| Config.AgentNetworkKeepsTestnetPreset | tools/_config.py:86-119 | `NETWORK=mainnet` in the agent file reports mainnet but keeps the testnet chain id |
| Config.ServiceSuppliesUnsetSettings | tools/_config.py:56-119 | with no local chain id, the exchange service's truthy chain id is the loaded one, and its vault address is used when no local source sets one |
| Config.RequirePrivateKey | tools/_config.py:134-141 | an empty key is refused; any other key is returned unchanged |
| Units.Trunc | tools/place_order.py:41-42 | `int()` on a real truncates toward zero: the result lies within one of the input, on the zero side |
| Units.BpsOfValidPrice | tools/place_order.py:41 | a price strictly between 0 and 1 converts to 0..9999 basis points |
| Units.TinyPriceTruncatesToZero | tools/place_order.py:38-41 | a price of 0.00005 passes the range check and converts to 0 bps |
| Units.BpsRoundTrip | tools/place_order.py:41 | over exact reals, a whole number of basis points written as a price converts back exactly |
| Units.RawRoundTrip | tools/place_order.py:42 | over exact reals, a whole number of raw units written as USDC converts back exactly |
| Units.RawOfPositive | tools/cashout.py:143-145 | a positive amount gives a non-negative raw amount, zero exactly below one raw unit |
| MarketAnalysis.Signals | tools/market_analysis.py:38-86 | spreads, buy-both cost, sell-both revenue, the fair-price sum and spread captures appear exactly when both quotes are truthy and equal ask − bid or the sum; `arbBuyBoth` is (10000 − cost) as a percentage, positive iff cost < 10000; `arbMintSell` is (revenue − 10000) as a percentage, positive iff revenue > 10000; capture × 10000 = spread |
| MarketAnalysis.Percent | tools/market_analysis.py:65-72 | a basis-point amount as a percentage of a dollar: percentage × 10000 = bps × 100 |
| MarketAnalysis.ZeroQuoteIsMissing | tools/market_analysis.py:52-65 | a 0 bps ask yields no spread, cost or capture |
| MarketAnalysis.ArbitrageEdgesExclusive | tools/market_analysis.py:52-72 | the two arbitrage edges add up to minus the two spreads, so on an uncrossed book they are never both positive |
| MarketAnalysis.BuyBothScenario | tools/market_analysis.py:60-65 | asks of 4500 and 5200 bps give cost 9700 and a 3% edge |
| MarketAnalysis.QuoteSection | tools/market_analysis.py:28-89 | the error flag is set iff the request raised; signals are present iff the status is 200 |
| MarketAnalysis.DepthAppend | tools/market_analysis.py:108 | depth is additive over any split of a side's levels |
| MarketAnalysis.DepthBoundsLevels | tools/market_analysis.py:104-109 | with non-negative amounts, depth is non-negative and at least each level's amount |
| MarketAnalysis.TopSize | tools/market_analysis.py:112-117 | an empty side has top size 0; otherwise it is the first level's amount, and a missing amount ends the run |
| MarketAnalysis.BookStats | tools/market_analysis.py:96-117 | each side's level count is its length and its depth the sum of its amounts; the book succeeds iff every top size does |
| MarketAnalysis.BookSection | tools/market_analysis.py:92-120 | the error flag is set iff the request raised; stats are present iff the status is 200, and are then exactly the body's book statistics; a 200 reply crashes iff its statistics do |
| MarketAnalysis.StatsSection | tools/market_analysis.py:123-133 | the error flag is set iff the request raised; volume and trade count default to 0 |
| MarketAnalysis.AnalyzeMarket | tools/market_analysis.py:23-135 | the analysis succeeds exactly when the order-book section does, carries the market id, and holds the fair-price, order-book and stats sections of its three replies |
| MarketAnalysis.FailedFetchIsIsolated | tools/market_analysis.py:88-133 | whichever request raises, only its own section changes, to the error flag; the other two sections are unchanged |
| MarketAnalysis.ZeroMarketIdFallsThrough | tools/market_analysis.py:165 | a zero or missing `marketId` falls through to `id` |
| MarketAnalysis.SelectIdsAppend | tools/market_analysis.py:163-167 | id selection keeps list order: selecting from a concatenation concatenates the selections |
| MarketAnalysis.SelectIdsSound | tools/market_analysis.py:164-167 | every selected id is some listed market's id, one per market that has one |
| MarketAnalysis.CollectIds | tools/market_analysis.py:163-167 | the loop selects exactly `SelectIds` |
| MarketAnalysis.AnalyzeAll | tools/market_analysis.py:163-169 | one analysis per id, in order, and success iff every market's analysis succeeds |
| MarketAnalysis.Analyze | tools/market_analysis.py:146-169 | with `--market-id`, exactly that market's analysis, and its crash as the error; otherwise a failed list fetch is an error, an empty list is reported as such, and the results are the analyses of the selected ids in order, succeeding iff every one does |
| Cashout.Destination | tools/cashout.py:88-117 | a blank `WITHDRAW_TO` is refused as not configured, one that does not checksum as invalid; a truthy `--to` that does not checksum is refused as invalid, one that checksums to another address as a mismatch; otherwise the destination is exactly the checksummed `WITHDRAW_TO` |
| Cashout.ToNeverRedirects | tools/cashout.py:105-117 | with or without `--to`, an accepted destination is the same one |
| Cashout.TransferAmount | tools/cashout.py:140-155 | an explicit amount must be positive and at most vault + wallet, and is then transferred exactly unless it truncates to 0 raw units; no amount means all of it, which succeeds iff something is held; a zero transfer is refused as nothing to transfer |
| Cashout.ConfigAddress | tools/cashout.py:127-128 | a configured contract address is used only in checksummed form, and one that does not checksum is refused by name |
| Cashout.SubUnitAmountIsNothing | tools/cashout.py:142-155 | an amount below one raw unit is refused as nothing to transfer |
| Cashout.NeedFromVault | tools/cashout.py:160 | the vault share is 0 iff the wallet covers the transfer, and otherwise exactly tops the wallet up to it |
| Cashout.Transactions | tools/cashout.py:198-217 | a vault withdrawal of the shortfall only when it is positive, then exactly one transfer of the amount to the destination |
| Cashout.Run | tools/cashout.py:84-188 | checks in order: key, destination, RPC, the vault and USDC addresses, amount; a bad contract address is refused naming the first one that fails, vault before USDC; the amount's error is the run's error; the plan is sent from the key's derived address to the checksummed `WITHDRAW_TO`, draws exactly the shortfall from the vault, and holds the transactions only with `--confirm` |
| Cashout.DestinationCheckedBeforeBalances | tools/cashout.py:88-134 | a refused destination is refused identically whatever the chain reports |
| Cashout.ConfirmedRunConservesFunds | tools/cashout.py:140-217 | the confirmed transactions never overdraw; the checksummed `WITHDRAW_TO` receives exactly the amount, the agent's total drops by it, and the vault by the shortfall only |
| PnlTracker.FairOf | tools/pnl_tracker.py:67-76 | each fair price defaults to 5000 bps on a raised request, a non-200 status or a missing field |
| PnlTracker.Value | tools/pnl_tracker.py:63-82 | a value in dollars times 10^10 is raw shares × basis points; non-negative shares at a non-negative price are worth at least zero |
| PnlTracker.ValueAdditive | tools/pnl_tracker.py:78-80 | two holdings at one price are worth the sum of their values |
| PnlTracker.ValueWithinShares | tools/pnl_tracker.py:78-80 | at a price between 0 and one dollar a holding is worth between 0 and its whole-share count |
| PnlTracker.DetailOf | tools/pnl_tracker.py:57-93 | the line carries the parsed market id, the `yes`/`yesShares` and `no`/`noShares` share counts, the fair prices and value = yes × yesFair + no × noFair; a non-integer key is an error |
| PnlTracker.UnknownPriceValuesAtHalf | tools/pnl_tracker.py:67-82 | without a fair price, a position is worth half a dollar per share |
| PnlTracker.DetailsKeepNonEmpty | tools/pnl_tracker.py:56-94 | one line per non-empty position, and no line has zero shares on both sides |
| PnlTracker.DetailsPrefixError | tools/pnl_tracker.py:56-85 | the first bad position key ends the run |
| PnlTracker.TrackPositions | tools/pnl_tracker.py:53-95 | the loop yields the lines of the non-empty positions and the sum of their values |
| PnlTracker.TotalsNonNegative | tools/pnl_tracker.py:95 | non-negative position values sum to a non-negative total |
| PnlTracker.Address | tools/pnl_tracker.py:26-30 | a truthy `--address` wins; otherwise the key's address, and a missing key is an error |
| PnlTracker.Track | tools/pnl_tracker.py:24-113 | a missing key without `--address` is an error; a raised state fetch or a 4xx/5xx status is a fetch failure; otherwise the run succeeds iff every position key parses, the count is the number of lines, the total their sum, available and reserved are the state's balance fields (0 when absent), and the open-order count is the list length |
| Signing.BuildDomain | tools/sign_order.py:21-27 | the domain is `BlackjackExchange`, version `1`, with chain id and verifying contract from the configuration |
| Signing.OrderMessage | tools/sign_order.py:30-59 | the message has exactly the eight `ORDER_TYPES` fields, in order, and integer values exactly where a `uint` is declared |
| Signing.EncodableOrder | tools/sign_order.py:30-41 | the message fits its declared types iff every integer fits its `uint` width |
| Signing.MessageRoundTrip | tools/sign_order.py:50-59 | the order can be read back from its message unchanged |
| Signing.HexSig | tools/sign_order.py:81-84 | the result always starts with `0x`, and the prefix is added only when missing |
| Signing.HexSigIdempotent | tools/sign_order.py:81-84 | normalising a signature twice is normalising it once |
| Signing.SignOrder | tools/sign_order.py:44-78 | signing succeeds iff the chain id and every message integer fit their `uint` types, and otherwise fails as unencodable; the trader is the signer's address, and the signature is over exactly the order message under the configured domain |
| Signing.PayloadEchoesOrder | tools/sign_order.py:68-78 | reading the payload back, with `int()` on its decimal `amount`, gives the signed order |
| Signing.CancelRoundTrip | tools/sign_order.py:89-90 | the cancel text gives back its order id and timestamp for any id without a line break |
| Signing.SignCancel | tools/sign_order.py:87-99 | the payload's id, timestamp and message agree, and the signature is over that message |
| Signing.NonceOrDefault | tools/sign_order.py:129 | an absent or zero nonce becomes the millisecond clock |
| Signing.ExpiryOrDefault | tools/sign_order.py:130 | an absent or zero expiry becomes the second clock + 3600 |
| Signing.DefaultsAreTruthy | tools/sign_order.py:129-130 | a defaulted nonce or expiry is never 0 |
| Signing.SignOrderArgs | tools/sign_order.py:127-141 | signing succeeds iff the order built from the arguments is encodable; `isBuy` iff side is buy, `isYes` iff outcome is yes; price and amount truncated; the payload reads back to that order |
| Signing.SignMain | tools/sign_order.py:119-149 | the key is checked first; an order with a missing field is refused as such, an unencodable one as unencodable, and any other is exactly what the signing of its arguments gives, for the given market, with `isBuy` exactly when the side is buy and `isYes` exactly when the outcome is yes; a cancel without a truthy order id is refused, otherwise it signs the exact cancel text |
| Signing.SignsOutOfRangePrice | tools/sign_order.py:123-142 | a price of 1.5 is signed as 15000 bps |
| Signing.NegativeAmountIsUnencodable | tools/sign_order.py:30-41 | a negative amount cannot be encoded as a `uint128`, so signing fails |
| PlaceOrder.Place | tools/place_order.py:33-65 | the key first, then `0 < price < 1`, then an unencodable order is refused before posting; a signable order is posted to `EXCHANGE_URL/api/order` as `{"order": signed}` with exactly what the signing tool produces, and the run succeeds iff the post gets an answer, which is passed through; a raised post is a submit failure |
| PlaceOrder.PlacedOrderMatchesSigner | tools/place_order.py:41-56 | the placed order is exactly what the signing tool produces from the same arguments |
| PlaceOrder.SubBasisPointPriceSignsZero | tools/place_order.py:38-41 | a price of 0.00005 is placed at 0 bps |
| PlaceOrder.NegativeAmountIsNotPosted | tools/place_order.py:33-56 | a negative amount at a valid price is refused as unencodable and never posted |
| VaultOps.ActionChoices | tools/vault_ops.py:132-136 | exactly the six listed action names are accepted, each naming its own action |
| VaultOps.RequireAmount | tools/vault_ops.py:210-213 | a missing or non-positive amount is refused; otherwise its truncated raw value |
| VaultOps.DepositTxs | tools/vault_ops.py:216-229 | an unlimited approve comes first iff the allowance is short, and the deposit comes last |
| VaultOps.DepositIsCovered | tools/vault_ops.py:216-229 | the deposit always meets enough allowance, and an approve is sent only when needed |
| VaultOps.WriteAction | tools/vault_ops.py:208-351 | deposit and withdraw need a positive amount and send exactly the approve-if-short-then-deposit, or the single withdrawal, of its raw value; mint and merge need a market id, then an amount, refuse a market id outside `uint64` or an amount outside `uint128`, and send one transaction for that market and amount; claim needs a market id within `uint64` and sends one claim for it iff some share balance is non-zero |
| VaultOps.BalanceOf | tools/vault_ops.py:162-194 | reports the vault and wallet balances of the checksummed `--address`, or else of the key's checksummed address (a missing key is an error); it succeeds iff that address checksums and any market id fits `uint64`, and then carries exactly that market's two share balances |
| VaultOps.Run | tools/vault_ops.py:142-198 | an unreachable RPC is refused first, then configured contract addresses that do not checksum, naming the first that fails in the order vault, exchange, USDC; `balance` is exactly the balance report and needs no key when `--address` is given; every other action is refused without a key and otherwise performs that action for the key's address |
| VaultOps.BalanceIsReadOnly | tools/vault_ops.py:162-195 | `balance` sends no transaction |
| VaultOps.EmptyClaimSendsNothing | tools/vault_ops.py:327-344 | a claim for a `uint64` market id with no shares of either side succeeds without a transaction |
| VaultOps.DepositMovesFunds | tools/vault_ops.py:209-231 | a deposit the wallet covers always goes through, whatever the allowance, and moves exactly its raw amount from the wallet into the vault |
| VaultOps.DepositThenWithdrawRestores | tools/vault_ops.py:209-254 | a deposit followed by a withdrawal of the same amount leaves wallet and vault as they were |
| ReadyCheck.MissingComplete | tools/ready_check.py:16-21 | a package is listed missing iff it is required and does not import |
| ReadyCheck.DepsFailIffMissing | tools/ready_check.py:14-24 | `check_deps` fails iff some required package does not import |
| ReadyCheck.CheckConfig | tools/ready_check.py:27-37 | passes iff the key is non-empty and derives to an address, which it returns |
| ReadyCheck.CheckNetwork | tools/ready_check.py:40-54 | passes iff `/api/markets` answers 200 |
| ReadyCheck.CheckRpc | tools/ready_check.py:57-68 | passes iff the node reports the configured chain id |
| ReadyCheck.CheckMon | tools/ready_check.py:71-82 | passes iff the gas balance is positive |
| ReadyCheck.CheckVault | tools/ready_check.py:85-114 | passes iff the vault or the wallet holds USDC |
| ReadyCheck.Ready | tools/ready_check.py:117-191 | deps is the dependency probe; config, network and rpc are skipped unless deps passes and are then exactly their probes; mon and vault run iff an address was derived and rpc passed, and then are the balance probes of that address; failures are the failed checks in DEPS…VAULT order; success iff none |
| ReadyCheck.ExitCode | tools/ready_check.py:217 | the exit code is 0 iff the run succeeds |
| ReadyCheck.SuccessIffNoFailure | tools/ready_check.py:186 | success iff no check failed; skips do not count |
| ReadyCheck.MissingPackageSkipsAll | tools/ready_check.py:128-183 | a missing package fails DEPS, skips every other check and exits 1 |
| ReadyCheck.NetworkFailureIsReported | tools/ready_check.py:146-191 | an unreachable exchange is reported as a NETWORK failure and the run exits 1 |
| ReadyCheck.RpcFailureSkipsBalances | tools/ready_check.py:155-183 | a wrong chain id fails RPC and skips both balance checks |
| ReadyCheck.AllGood | tools/ready_check.py:117-191 | when every probe succeeds, the summary is the green light and the exit code 0 |
| ReadyCheck.SummaryCountsFailures | tools/ready_check.py:186-191 | a failing summary starts with the failure count, which `int()` reads back |
| ReadyCheck.SummariesDiffer | tools/ready_check.py:186-191 | a failing summary is never the green-light line |

## Left out

- Network, chain and file I/O: HTTP requests, web3 contract calls, and building, signing, sending and awaiting transactions. Their results are parameters. Reading `.env` lines from a file, globbing for `agent*.env` and `json.load` of `config.json` are outside the model; the loader takes the parsed layers.
- Balances read back after transactions (`newBalance`, remaining vault and wallet, share balances after mint or merge) are chain reads the model does not predict.
- EIP-712 struct hashing, `encode_typed_data`, EIP-191 `encode_defunct` and ECDSA signing: foreign library code. The signature is an opaque function of key and message.
- `tools/ws_listener.py`, `tools/fetch_state.py` and `tools/cancel_order.py` are not part of this model. They are asynchronous streaming or single-call wrappers with no decision logic.
- Display rounding (`round(x, 2)`, `/ 10**6`, the `...Pct` percentage fields, MON in ether units) and IEEE float behaviour: values are exact reals or integers.
- `float()` accepts only plain decimals here: exponents, `inf`, `nan` and underscores are not modelled. `int()` accepts ASCII digits only, without underscores.
- Configuration values are strings; `config.json` entries of other JSON types are not modelled.
- The `market_map` that `pnl_tracker.py` builds is never read, so it is not modelled.
- The stderr progress messages of every tool, and the human-readable listing of `ready_check.py`.
- ReadyCheck.CheckVault: the address checksumming in `check_vault` sits outside its `try`, so a bad address would end the whole run; the model folds every failure into a FAIL verdict.
- MarketAnalysis.StatsSection: `lastTradePrice`, `phase` and `handId` are echoed, and its contract does not restate them.
- MarketAnalysis.QuoteSection: `hasLiquidity` sent as JSON `null` reads as false here, while the source echoes `None`.
- Account derivation from a malformed private key (`Account.from_key` raising) is outside the model; derivation is a total parameter, except in `ready_check.py` where its failure is a FAIL.
- Units.BpsRoundTrip: holds for exact reals only; with IEEE doubles `int(0.57 * 10000)` is 5699, so the source loses a basis point on such prices.
- Units.RawRoundTrip: holds for exact reals only; with IEEE doubles `int(8.2 * 10**6)` is 8199999.
- Signing.SignOrder: the verifying contract is not checked to be a well-formed address; only the integer ranges are.
- VaultOps.DepositMovesFunds: the `Funds` ledger is ordinary ERC-20 and vault accounting, assumed because the contracts themselves are not modelled.
- VaultOps.WriteAction: a deposit or withdrawal of more than 2^256 − 1 raw units, where web3 would raise after a possible approve was already sent, is not refused; such amounts exceed any real balance.
- Reply bodies are taken as already decoded, well-typed JSON: numeric fields that the tools pass through `int()` (`totalAmount` and `volume` in `market_analysis.py`, the `yes`/`no` share counts and `available`/`reserved` in `pnl_tracker.py`) arrive as integers. The `ValueError` that `int()` raises on malformed text, the `TypeError` it raises on JSON `null`, and a body that is not JSON at all are not modelled; a field sent as `null` is read as absent.
- PnlTracker.FairOf: a `yesFairPrice` or `noFairPrice` sent as JSON `null` is valued at 5000 bps like a missing one, while the source's division raises `TypeError` and ends the run.
- PlaceOrder.Place: an answer whose body is not JSON is passed through as the result, while the source's `resp.json()` raises and the run fails.
- Signing.SignMain: `argparse` already restricts `--side`, `--outcome` and `--type` to their choices, so those are enumerations rather than strings.

=== FILE: base.dfy ===
/**
 Failure-carrying datatypes shared by every tool model, and the shape of an
 HTTP reply once the network call has been made.
 */
module Base {

  /** A value that may be missing, as `dict.get` returns `None` for an absent key. */
  datatype Option<+T> = None | Some(value: T) {

    function GetOr(default: T): T {
      match this
      case Some(v) => v
      case None => default
    }
  }

  /** The outcome of a tool run: a value, or the error it exits with. */
  datatype Result<+T, +E> = Ok(value: T) | Err(error: E) {

    predicate IsFailure() {
      Err?
    }

    function PropagateFailure<U>(): Result<U, E>
      requires Err?
    {
      Err(error)
    }

    function Extract(): T
      requires Ok?
    {
      value
    }
  }

  /**
   An HTTP request made with `requests`: either it raised a `RequestException`
   (connection refused, timeout, ...) or the server answered with a status code
   and a decoded JSON body.
   */
  datatype Reply<+T> = Raised | Responded(status: int, body: T) {

    /** The reply of a successful (`200`) request. */
    predicate IsOk() {
      Responded? && status == 200
    }
  }

  /** Python truthiness of an optional integer field: present and non-zero. */
  predicate Truthy(x: Option<int>) {
    x.Some? && x.value != 0
  }

  /** Python truthiness of an optional string: present and non-empty. */
  predicate TruthyText(x: Option<string>) {
    x.Some? && x.value != ""
  }

  /** Sum of a sequence of integers, left to right. */
  function Sum(xs: seq<int>): int {
    if |xs| == 0 then 0 else Sum(xs[..|xs| - 1]) + xs[|xs| - 1]
  }

  lemma {:induction false} SumAppend(xs: seq<int>, ys: seq<int>)
    ensures Sum(xs + ys) == Sum(xs) + Sum(ys)
    decreases |ys|
  {
    if |ys| == 0 {
      assert xs + ys == xs;
    } else {
      var ys' := ys[..|ys| - 1];
      assert (xs + ys)[..|xs + ys| - 1] == xs + ys';
      SumAppend(xs, ys');
    }
  }

  lemma {:induction false} SumNonNegative(xs: seq<int>)
    requires forall i :: 0 <= i < |xs| ==> xs[i] >= 0
    ensures Sum(xs) >= 0
    ensures forall i :: 0 <= i < |xs| ==> xs[i] <= Sum(xs)
    decreases |xs|
  {
    if |xs| > 0 {
      SumNonNegative(xs[..|xs| - 1]);
    }
  }
}

=== FILE: cashout.dfy ===
/**
 Moving USDC out to the owner's wallet (`tools/cashout.py`). The destination
 is pinned to `WITHDRAW_TO` from the process environment. `--to` can only
 confirm it and never redirect it. The vault tops up the wallet only by the
 shortfall, and the run yields either a plan (dry run) or the two
 transactions it sends.

 Address checksumming (`Web3.to_checksum_address`) is the parameter
 `checksum`, with `None` for an address it rejects. The chain reads are the
 `Chain` record.
 */
module Cashout {
  import opened Base
  import opened Text
  import opened Units
  import Config

  /** `--to`, `--amount` and `--confirm`. */
  datatype CashoutArgs = CashoutArgs(to: Option<string>, amount: Option<real>, confirm: bool)

  /**
   What the RPC node reports: connectivity, and the raw vault and wallet
   balances of the agent, whose address is derived from the private key.
   */
  datatype Chain = Chain(connected: bool, vaultBalance: nat, walletBalance: nat)

  datatype CashoutError =
    | MissingPrivateKey
    | WithdrawToNotConfigured
    | WithdrawToInvalid
    | ToInvalid
    | AddressMismatch
    | RpcUnreachable
    | ConfigAddressInvalid(address: string)
    | AmountNotPositive
    | InsufficientFunds
    | NothingToTransfer

  /** A transaction the tool sends: `vault.withdraw(amount)` or `usdc.transfer(to, amount)`. */
  datatype Tx = VaultWithdraw(amount: nat) | UsdcTransfer(to: string, amount: nat)

  /**
   The outcome of a run. `vaultWithdraw` is the raw amount taken from the
   vault, `steps` the number of steps the plan lists, and `txs` the
   transactions sent (none on a dry run).
   */
  datatype Outcome = Outcome(
    dryRun: bool,
    from: string,
    to: string,
    transfer: nat,
    vaultWithdraw: nat,
    steps: nat,
    txs: seq<Tx>)

  /** `os.environ.get("WITHDRAW_TO", "").strip()`. */
  function WithdrawTo(env: Config.Layer): string {
    Strip(if "WITHDRAW_TO" in env then env["WITHDRAW_TO"] else "")
  }

  /**
   The destination. A blank `WITHDRAW_TO` or one that does not checksum is
   refused. A truthy `--to` must checksum to the same address.
   */
  function Destination(env: Config.Layer, to: Option<string>, checksum: string -> Option<string>): (r: Result<string, CashoutError>)
    ensures r.Ok? ==> WithdrawTo(env) != "" && checksum(WithdrawTo(env)) == Some(r.value)
    ensures WithdrawTo(env) == "" <==> r == Err(WithdrawToNotConfigured)
    ensures r.Ok? && TruthyText(to) ==> checksum(to.value) == Some(r.value)
    ensures (&& TruthyText(to) && checksum(to.value).Some?
             && WithdrawTo(env) != "" && checksum(WithdrawTo(env)).Some?
             && checksum(to.value) != checksum(WithdrawTo(env)))
            ==> r == Err(AddressMismatch)
    ensures WithdrawTo(env) != "" && checksum(WithdrawTo(env)).None? ==> r == Err(WithdrawToInvalid)
    ensures (&& WithdrawTo(env) != "" && checksum(WithdrawTo(env)).Some?
             && TruthyText(to) && checksum(to.value).None?)
            ==> r == Err(ToInvalid)
    ensures (&& WithdrawTo(env) != "" && checksum(WithdrawTo(env)).Some?
             && (!TruthyText(to) || checksum(to.value) == checksum(WithdrawTo(env))))
            ==> r == Ok(checksum(WithdrawTo(env)).value)
  {
    var withdrawTo := WithdrawTo(env);
    if withdrawTo == "" then Err(WithdrawToNotConfigured)
    else match checksum(withdrawTo)
      case None => Err(WithdrawToInvalid)
      case Some(dest) =>
        if TruthyText(to) then
          match checksum(to.value)
          case None => Err(ToInvalid)
          case Some(provided) => if provided != dest then Err(AddressMismatch) else Ok(dest)
        else Ok(dest)
  }

  /**
   `--to` cannot redirect funds: whatever it says, the destination is the
   one `WITHDRAW_TO` alone gives, or the run is refused.
   */
  lemma ToNeverRedirects(env: Config.Layer, to: Option<string>, checksum: string -> Option<string>)
    requires Destination(env, to, checksum).Ok?
    ensures Destination(env, None, checksum) == Destination(env, to, checksum)
  {
  }

  /**
   The raw amount to transfer. An explicit amount must be positive and at
   most the combined balance. Without one, everything is transferred. A
   zero amount is refused.
   */
  function TransferAmount(amount: Option<real>, vault: nat, wallet: nat): (r: Result<nat, CashoutError>)
    ensures r.Ok? ==> 0 < r.value <= vault + wallet
    ensures amount.None? && r.Ok? ==> r.value == vault + wallet
    ensures amount.Some? && r.Ok? ==> r.value == UsdcToRaw(amount.value)
    ensures amount.Some? && amount.value <= 0.0 ==> r == Err(AmountNotPositive)
    ensures amount.Some? && amount.value > 0.0 && UsdcToRaw(amount.value) > vault + wallet ==> r == Err(InsufficientFunds)
    ensures amount.None? ==> (r.Ok? <==> vault + wallet > 0)
    ensures amount.None? && vault + wallet == 0 ==> r == Err(NothingToTransfer)
    ensures amount.Some? && amount.value > 0.0 && 0 < UsdcToRaw(amount.value) <= vault + wallet
            ==> r == Ok(UsdcToRaw(amount.value))
    ensures amount.Some? && amount.value > 0.0 && UsdcToRaw(amount.value) == 0 ==> r == Err(NothingToTransfer)
  {
    var total := vault + wallet;
    var raw: int :-
      match amount
      case None => Ok(total)
      case Some(a) =>
        if a <= 0.0 then Err(AmountNotPositive)
        else if UsdcToRaw(a) > total then Err(InsufficientFunds)
        else Ok(UsdcToRaw(a));
    if raw == 0 then Err(NothingToTransfer) else Ok(raw)
  }

  /** An amount below one raw unit passes the sign check and is then refused as nothing to transfer. */
  lemma SubUnitAmountIsNothing(vault: nat, wallet: nat)
    ensures TransferAmount(Some(0.0000001), vault, wallet) == Err(NothingToTransfer)
  {
  }

  /** `max(0, transfer - wallet)`: the shortfall the vault covers. */
  function NeedFromVault(transfer: nat, wallet: nat): (r: nat)
    ensures r == 0 <==> transfer <= wallet
    ensures wallet + r >= transfer
    ensures r > 0 ==> wallet + r == transfer
  {
    if transfer > wallet then transfer - wallet else 0
  }

  /** The transactions of a confirmed run: the vault withdrawal when needed, then the transfer. */
  function Transactions(dest: string, transfer: nat, need: nat): (r: seq<Tx>)
    ensures |r| == if need > 0 then 2 else 1
    ensures r[|r| - 1] == UsdcTransfer(dest, transfer)
    ensures need > 0 ==> r[0] == VaultWithdraw(need)
  {
    (if need > 0 then [VaultWithdraw(need)] else []) + [UsdcTransfer(dest, transfer)]
  }

  /** `Web3.to_checksum_address` on a configured contract address, which raises on a malformed one. */
  function ConfigAddress(address: string, checksum: string -> Option<string>): (r: Result<string, CashoutError>)
    ensures r.Ok? <==> checksum(address).Some?
    ensures r.Err? ==> r.error == ConfigAddressInvalid(address)
  {
    match checksum(address)
    case Some(a) => Ok(a)
    case None => Err(ConfigAddressInvalid(address))
  }

  /**
   `main`. The private key is checked first, then the destination, then
   the RPC connection, then the vault and USDC contract addresses, then the
   amount. The agent's address is `derive` of the private key. All destination checks happen before any balance is read.
   */
  function Run(
    cfg: Config.Settings,
    env: Config.Layer,
    args: CashoutArgs,
    checksum: string -> Option<string>,
    derive: string -> string,
    chain: Chain): (r: Result<Outcome, CashoutError>)
    ensures cfg.privateKey == "" ==> r == Err(MissingPrivateKey)
    ensures cfg.privateKey != "" && Destination(env, args.to, checksum).Err? ==> r == Err(Destination(env, args.to, checksum).error)
    ensures cfg.privateKey != "" && Destination(env, args.to, checksum).Ok? && !chain.connected ==> r == Err(RpcUnreachable)
    ensures (&& cfg.privateKey != "" && Destination(env, args.to, checksum).Ok? && chain.connected
             && (checksum(cfg.vaultAddress).None? || checksum(cfg.usdcAddress).None?))
            ==> r.Err? && r.error.ConfigAddressInvalid?
    ensures (&& cfg.privateKey != "" && Destination(env, args.to, checksum).Ok? && chain.connected
             && checksum(cfg.vaultAddress).None?)
            ==> r == Err(ConfigAddressInvalid(cfg.vaultAddress))
    ensures (&& cfg.privateKey != "" && Destination(env, args.to, checksum).Ok? && chain.connected
             && checksum(cfg.vaultAddress).Some? && checksum(cfg.usdcAddress).None?)
            ==> r == Err(ConfigAddressInvalid(cfg.usdcAddress))
    ensures (&& cfg.privateKey != "" && Destination(env, args.to, checksum).Ok? && chain.connected
             && checksum(cfg.vaultAddress).Some? && checksum(cfg.usdcAddress).Some?)
            ==> (&& (r.Ok? <==> TransferAmount(args.amount, chain.vaultBalance, chain.walletBalance).Ok?)
                 && (r.Err? ==> r == Err(TransferAmount(args.amount, chain.vaultBalance, chain.walletBalance).error)))
    ensures r.Ok? ==> checksum(WithdrawTo(env)) == Some(r.value.to)
    ensures r.Ok? ==> chain.connected && 0 < r.value.transfer <= chain.vaultBalance + chain.walletBalance
    ensures r.Ok? ==> TransferAmount(args.amount, chain.vaultBalance, chain.walletBalance) == Ok(r.value.transfer)
    ensures r.Ok? ==> r.value.from == derive(cfg.privateKey)
    ensures r.Ok? ==> r.value.vaultWithdraw == NeedFromVault(r.value.transfer, chain.walletBalance)
    ensures r.Ok? ==> r.value.txs == if args.confirm then Transactions(r.value.to, r.value.transfer, r.value.vaultWithdraw) else []
    ensures r.Ok? ==> r.value.dryRun == !args.confirm && (r.value.txs == [] <==> !args.confirm)
    ensures r.Ok? ==> (r.value.steps == 2 <==> r.value.vaultWithdraw > 0) && 1 <= r.value.steps <= 2
  {
    var _ :- if cfg.privateKey == "" then Err(MissingPrivateKey) else Ok(());
    var dest :- Destination(env, args.to, checksum);
    var _ :- if !chain.connected then Err(RpcUnreachable) else Ok(());
    var _ :- ConfigAddress(cfg.vaultAddress, checksum);
    var _ :- ConfigAddress(cfg.usdcAddress, checksum);
    var transfer :- TransferAmount(args.amount, chain.vaultBalance, chain.walletBalance);
    var need := NeedFromVault(transfer, chain.walletBalance);
    Ok(Outcome(
      dryRun := !args.confirm,
      from := derive(cfg.privateKey),
      to := dest,
      transfer := transfer,
      vaultWithdraw := need,
      steps := if need > 0 then 2 else 1,
      txs := if args.confirm then Transactions(dest, transfer, need) else []))
  }

  /**
   The destination checks do not look at the chain: with the same
   configuration and arguments, a run refused for its destination is
   refused the same way whatever the RPC node reports.
   */
  lemma DestinationCheckedBeforeBalances(
    cfg: Config.Settings, env: Config.Layer, args: CashoutArgs,
    checksum: string -> Option<string>, derive: string -> string, c1: Chain, c2: Chain)
    requires cfg.privateKey != ""
    requires Destination(env, args.to, checksum).Err?
    ensures Run(cfg, env, args, checksum, derive, c1) == Run(cfg, env, args, checksum, derive, c2)
  {
  }

  /** Balances the agent holds, and what `recipient` has received. */
  datatype Balances = Balances(vault: nat, wallet: nat, sent: nat)

  /**
   Apply the transactions in order; `None` when one would overdraw. Only a
   transfer to `recipient` counts as received; any other transfer still
   leaves the wallet.
   */
  function Execute(txs: seq<Tx>, b: Balances, recipient: string): Option<Balances> {
    if |txs| == 0 then Some(b)
    else
      var next :=
        match txs[0]
        case VaultWithdraw(n) =>
          if n <= b.vault then Some(Balances(b.vault - n, b.wallet + n, b.sent)) else None
        case UsdcTransfer(to, n) =>
          if n <= b.wallet then Some(Balances(b.vault, b.wallet - n, if to == recipient then b.sent + n else b.sent)) else None;
      match next
      case Some(b') => Execute(txs[1..], b', recipient)
      case None => None
  }

  /**
   The confirmed transactions never overdraw the vault or the wallet. The
   checksummed `WITHDRAW_TO` receives exactly the transfer amount, which
   leaves the agent's combined balance, and the vault loses only the
   shortfall.
   */
  lemma ConfirmedRunConservesFunds(
    cfg: Config.Settings, env: Config.Layer, args: CashoutArgs,
    checksum: string -> Option<string>, derive: string -> string, chain: Chain)
    requires Run(cfg, env, args, checksum, derive, chain).Ok?
    requires args.confirm
    ensures checksum(WithdrawTo(env)).Some?
    ensures var o := Run(cfg, env, args, checksum, derive, chain).value;
            var after := Execute(o.txs, Balances(chain.vaultBalance, chain.walletBalance, 0), checksum(WithdrawTo(env)).value);
            && after.Some?
            && after.value.sent == o.transfer
            && after.value.vault + after.value.wallet + o.transfer == chain.vaultBalance + chain.walletBalance
            && after.value.vault == chain.vaultBalance - o.vaultWithdraw
  {
    var o := Run(cfg, env, args, checksum, derive, chain).value;
    var v, w := chain.vaultBalance, chain.walletBalance;
    var t, need := o.transfer, o.vaultWithdraw;
    assert need == NeedFromVault(t, w);
    if need > 0 {
      assert o.txs == [VaultWithdraw(need), UsdcTransfer(o.to, t)];
      assert need <= v;
      assert o.txs[1..] == [UsdcTransfer(o.to, t)];
      assert Execute(o.txs[1..], Balances(v - need, w + need, 0), o.to) == Some(Balances(v - need, w + need - t, t));
    } else {
      assert o.txs == [UsdcTransfer(o.to, t)];
      assert Execute(o.txs, Balances(v, w, 0), o.to) == Execute([], Balances(v, w - t, t), o.to);
    }
  }
}

=== FILE: config.dfy ===
/**
 Configuration layering shared by every tool (`tools/_config.py`): the
 `.env` parser, the configuration fetched from the exchange service, the
 network presets and the six-level lookup that builds the settings record.

 The process environment, the agent `.env` file, `config.json` and the
 exchange reply are parameters; reading files, globbing and HTTP are not
 modelled.
 */
module Config {
  import opened Base
  import opened Text

  /** A string-keyed configuration layer (`os.environ`, a parsed `.env`, `config.json`, ...). */
  type Layer = map<string, string>

  // ---------------------------------------------------------------------
  // .env files
  // ---------------------------------------------------------------------

  /** A stripped line is an entry: not blank, not a comment, has an `=`. */
  predicate IsEntry(t: string) {
    t != "" && t[0] != '#' && '=' in t
  }

  /** The line is one `_parse_env_file` keeps. */
  predicate IsEntryLine(line: string) {
    IsEntry(Strip(line))
  }

  /** An entry split at its first `=`, both sides stripped. */
  function SplitEntry(t: string): (r: (string, string))
    requires '=' in t
    ensures '=' !in r.0 && IsStripped(r.0) && IsStripped(r.1)
  {
    var (key, value) := Partition(t, '=');
    assert '=' !in Strip(key) by {
      StripShape(key);
    }
    (Strip(key), Strip(value))
  }

  /**
   One line of a `.env` file. Blank lines, comments and lines without `=`
   give `None`; otherwise the key is the stripped text before the first `=`
   and the value the stripped text after it.
   */
  function ParseEnvLine(line: string): (r: Option<(string, string)>)
    ensures r.Some? <==> IsEntryLine(line)
    ensures r.Some? ==> '=' !in r.value.0 && IsStripped(r.value.0) && IsStripped(r.value.1)
  {
    var t := Strip(line);
    if IsEntry(t) then Some(SplitEntry(t)) else None
  }

  /** The `.env` text a `KEY=VALUE` entry is written as. */
  function EnvLine(key: string, value: string): string {
    key + "=" + value
  }

  lemma EnvLineSplit(key: string, value: string)
    requires '=' !in key && IsStripped(key) && IsStripped(value)
    ensures '=' in EnvLine(key, value)
    ensures SplitEntry(EnvLine(key, value)) == (key, value)
  {
    var line := EnvLine(key, value);
    assert line[|key|] == '=';
    assert Find(line, '=') == |key| by {
      assert forall i :: 0 <= i < |key| ==> line[i] == key[i];
    }
    assert line[..|key|] == key;
    assert line[|key| + 1..] == value;
    StripOfStripped(key);
    StripOfStripped(value);
  }

  lemma EnvLineStripped(key: string, value: string)
    requires key != "" && IsStripped(key)
    ensures IsStripped(EnvLine(key, value)) || !IsStripped(value)
  {
  }

  /**
   A `KEY=VALUE` line parses back to its key and value, even when the value
   itself contains `=`.
   */
  lemma EnvLineRoundTrip(key: string, value: string)
    requires key != "" && key[0] != '#' && '=' !in key
    requires IsStripped(key) && IsStripped(value)
    ensures ParseEnvLine(EnvLine(key, value)) == Some((key, value))
  {
    var line := EnvLine(key, value);
    EnvLineStripped(key, value);
    StripOfStripped(line);
    EnvLineSplit(key, value);
    assert line[0] == key[0];
  }

  /** The parsed form of every line. */
  function Entries(lines: seq<string>): (r: seq<Option<(string, string)>>)
    ensures |r| == |lines|
    ensures forall i :: 0 <= i < |lines| ==> r[i] == ParseEnvLine(lines[i])
  {
    seq(|lines|, i requires 0 <= i < |lines| => ParseEnvLine(lines[i]))
  }

  /** Entries applied in order, a later key overriding an earlier one. */
  function Collect(entries: seq<Option<(string, string)>>): Layer {
    if |entries| == 0 then map[]
    else
      var env := Collect(entries[..|entries| - 1]);
      match entries[|entries| - 1]
      case Some((k, v)) => env[k := v]
      case None => env
  }

  /** `_parse_env_file` on the file's lines. */
  function ParseEnvFile(lines: seq<string>): Layer {
    Collect(Entries(lines))
  }

  /** The loop of `_parse_env_file`, one line at a time. */
  method ParseEnvLines(lines: seq<string>) returns (env: Layer)
    ensures env == ParseEnvFile(lines)
  {
    ghost var entries := Entries(lines);
    env := map[];
    var i := 0;
    while i < |lines|
      invariant 0 <= i <= |lines|
      invariant env == Collect(entries[..i])
    {
      assert entries[..i + 1][..i] == entries[..i];
      match ParseEnvLine(lines[i]) {
        case Some((k, v)) => env := env[k := v];
        case None =>
      }
      i := i + 1;
    }
    assert entries[..|lines|] == entries;
  }

  /** The entry assigns to `key`. */
  predicate Assigns(e: Option<(string, string)>, key: string) {
    e.Some? && e.value.0 == key
  }

  /** The line assigns to `key`. */
  predicate Defines(line: string, key: string) {
    Assigns(ParseEnvLine(line), key)
  }

  lemma {:induction false} CollectKeys(entries: seq<Option<(string, string)>>, key: string)
    ensures key in Collect(entries) <==> exists i :: 0 <= i < |entries| && Assigns(entries[i], key)
    decreases |entries|
  {
    if |entries| > 0 {
      var init := entries[..|entries| - 1];
      CollectKeys(init, key);
      if exists i :: 0 <= i < |init| && Assigns(init[i], key) {
        var i :| 0 <= i < |init| && Assigns(init[i], key);
        assert Assigns(entries[i], key);
      }
      if exists i :: 0 <= i < |entries| && Assigns(entries[i], key) {
        var i :| 0 <= i < |entries| && Assigns(entries[i], key);
        if i < |entries| - 1 {
          assert Assigns(init[i], key);
        }
      }
    }
  }

  lemma {:induction false} CollectLastWins(entries: seq<Option<(string, string)>>, i: nat, key: string, value: string)
    requires i < |entries|
    requires entries[i] == Some((key, value))
    requires forall j :: i < j < |entries| ==> !Assigns(entries[j], key)
    ensures key in Collect(entries) && Collect(entries)[key] == value
    decreases |entries|
  {
    var last := |entries| - 1;
    if i < last {
      var init := entries[..last];
      assert !Assigns(entries[last], key);
      CollectLastWins(init, i, key, value);
    }
  }

  /**
   A key is in the parsed file exactly when some line defines it; blank,
   comment and `=`-less lines define nothing.
   */
  lemma EnvFileKeys(lines: seq<string>, key: string)
    ensures key in ParseEnvFile(lines) <==> exists i :: 0 <= i < |lines| && Defines(lines[i], key)
  {
    var entries := Entries(lines);
    CollectKeys(entries, key);
    if exists i :: 0 <= i < |lines| && Defines(lines[i], key) {
      var i :| 0 <= i < |lines| && Defines(lines[i], key);
      assert Assigns(entries[i], key);
    }
  }

  /**
   The value of a key is the value on the last line that defines it: a
   later duplicate overrides an earlier one.
   */
  lemma EnvFileLastWins(lines: seq<string>, i: nat, key: string, value: string)
    requires i < |lines|
    requires ParseEnvLine(lines[i]) == Some((key, value))
    requires forall j :: i < j < |lines| ==> !Defines(lines[j], key)
    ensures key in ParseEnvFile(lines) && ParseEnvFile(lines)[key] == value
  {
    CollectLastWins(Entries(lines), i, key, value);
  }

  // ---------------------------------------------------------------------
  // Remote configuration from the exchange service (`GET /api/config`)
  // ---------------------------------------------------------------------

  /** The `contracts` field: missing, JSON `null` (whose `.get` raises), or an object. */
  datatype ContractsField =
    | NoContracts
    | NullContracts
    | Contracts(exchange: Option<string>, vault: Option<string>, usdc: Option<string>)

  datatype RemoteConfig = RemoteConfig(
    chainId: Option<int>,
    rpcUrl: Option<string>,
    network: Option<string>,
    contracts: ContractsField)

  /** The reply; a body of `None` is one that is not a JSON object (decoding or `.get` raises). */
  type RemoteReply = Reply<Option<RemoteConfig>>

  /** The only keys the exchange service can supply. */
  const RemoteKeys: set<string> :=
    {"CHAIN_ID", "RPC_URL", "NETWORK", "EXCHANGE_ADDRESS", "VAULT_ADDRESS", "USDC_ADDRESS"}

  function Contracts(c: ContractsField): (r: Layer)
    requires !c.NullContracts?
    ensures r.Keys <= {"EXCHANGE_ADDRESS", "VAULT_ADDRESS", "USDC_ADDRESS"}
    ensures "EXCHANGE_ADDRESS" in r <==> c.Contracts? && TruthyText(c.exchange)
    ensures "EXCHANGE_ADDRESS" in r ==> r["EXCHANGE_ADDRESS"] == c.exchange.value
    ensures "VAULT_ADDRESS" in r <==> c.Contracts? && TruthyText(c.vault)
    ensures "VAULT_ADDRESS" in r ==> r["VAULT_ADDRESS"] == c.vault.value
    ensures "USDC_ADDRESS" in r <==> c.Contracts? && TruthyText(c.usdc)
    ensures "USDC_ADDRESS" in r ==> r["USDC_ADDRESS"] == c.usdc.value
  {
    match c
    case NoContracts => map[]
    case Contracts(exchange, vault, usdc) =>
      var m0: Layer := map[];
      var m1 := if TruthyText(exchange) then m0["EXCHANGE_ADDRESS" := exchange.value] else m0;
      var m2 := if TruthyText(vault) then m1["VAULT_ADDRESS" := vault.value] else m1;
      if TruthyText(usdc) then m2["USDC_ADDRESS" := usdc.value] else m2
  }

  /** A 200 reply whose body is an object with a `contracts` field that is not `null`. */
  predicate UsableReply(reply: RemoteReply) {
    reply.IsOk() && reply.body.Some? && !reply.body.value.contracts.NullContracts?
  }

  /**
   `_fetch_exchange_config`: only truthy fields are copied, the chain id as
   its decimal text; a non-200 status, a body that is not an object, a
   `null` contracts field or a raised request all give `{}`.
   */
  function FetchExchangeConfig(reply: RemoteReply): (r: Layer)
    ensures r.Keys <= RemoteKeys
    ensures !UsableReply(reply) ==> r == map[]
    ensures "CHAIN_ID" in r <==> UsableReply(reply) && Truthy(reply.body.value.chainId)
    ensures "CHAIN_ID" in r ==> ParseInt(r["CHAIN_ID"]) == Some(reply.body.value.chainId.value)
    ensures "RPC_URL" in r <==> UsableReply(reply) && TruthyText(reply.body.value.rpcUrl)
    ensures "RPC_URL" in r ==> r["RPC_URL"] == reply.body.value.rpcUrl.value
    ensures "NETWORK" in r <==> UsableReply(reply) && TruthyText(reply.body.value.network)
    ensures "NETWORK" in r ==> r["NETWORK"] == reply.body.value.network.value
    ensures "EXCHANGE_ADDRESS" in r <==> (&& UsableReply(reply) && reply.body.value.contracts.Contracts?
                                          && TruthyText(reply.body.value.contracts.exchange))
    ensures "EXCHANGE_ADDRESS" in r ==> r["EXCHANGE_ADDRESS"] == reply.body.value.contracts.exchange.value
    ensures "VAULT_ADDRESS" in r <==> (&& UsableReply(reply) && reply.body.value.contracts.Contracts?
                                       && TruthyText(reply.body.value.contracts.vault))
    ensures "VAULT_ADDRESS" in r ==> r["VAULT_ADDRESS"] == reply.body.value.contracts.vault.value
    ensures "USDC_ADDRESS" in r <==> (&& UsableReply(reply) && reply.body.value.contracts.Contracts?
                                      && TruthyText(reply.body.value.contracts.usdc))
    ensures "USDC_ADDRESS" in r ==> r["USDC_ADDRESS"] == reply.body.value.contracts.usdc.value
  {
    if !reply.IsOk() || reply.body.None? then map[]
    else
      var d := reply.body.value;
      if d.contracts.NullContracts? then map[]
      else
        var m0: Layer := map[];
        var m1 := if Truthy(d.chainId) then m0["CHAIN_ID" := IntToString(d.chainId.value)] else m0;
        var m2 := if TruthyText(d.rpcUrl) then m1["RPC_URL" := d.rpcUrl.value] else m1;
        var m3 := if TruthyText(d.network) then m2["NETWORK" := d.network.value] else m2;
        IntRoundTrip(if Truthy(d.chainId) then d.chainId.value else 0);
        m3 + Contracts(d.contracts)
  }

  // ---------------------------------------------------------------------
  // Network presets and layered lookup
  // ---------------------------------------------------------------------

  const DefaultNetwork: string := "testnet"

  const DefaultExchangeUrl: string := "http://localhost:3002"

  const Testnet: Layer := map[
    "CHAIN_ID" := "10143",
    "RPC_URL" := "https://testnet-rpc.monad.xyz",
    "EXCHANGE_ADDRESS" := "0xC628e81B506b572391669339c2AbaCFafa0d95dD",
    "VAULT_ADDRESS" := "0xd1a710199b84899856696Ce0AA30377fB7B485C3",
    "USDC_ADDRESS" := "0xDE6498947808BCcD50F18785Cc3B0C472380C1fB"]

  const Mainnet: Layer := map[
    "CHAIN_ID" := "143",
    "RPC_URL" := "https://rpc.monad.xyz",
    "EXCHANGE_ADDRESS" := "0xC628e81B506b572391669339c2AbaCFafa0d95dD",
    "VAULT_ADDRESS" := "0xd1a710199b84899856696Ce0AA30377fB7B485C3",
    "USDC_ADDRESS" := "0xDE6498947808BCcD50F18785Cc3B0C472380C1fB"]

  const Networks: map<string, Layer> := map["testnet" := Testnet, "mainnet" := Mainnet]

  /** `_NETWORKS.get(network, _NETWORKS[_DEFAULT_NETWORK])`. */
  function Preset(network: string): (r: Layer)
    ensures network in Networks ==> r == Networks[network]
    ensures network !in Networks ==> r == Testnet
  {
    if network in Networks then Networks[network] else Networks[DefaultNetwork]
  }

  /** Nested `.get(key, ...)` over layers, highest priority first. */
  function Lookup(layers: seq<Layer>, key: string, default: string): string {
    if |layers| == 0 then default
    else if key in layers[0] then layers[0][key]
    else Lookup(layers[1..], key, default)
  }

  /**
   Lookup precedence: the value comes from the first layer holding the key,
   and is the default when no layer does.
   */
  lemma {:induction false} LookupFirstHolder(layers: seq<Layer>, key: string, default: string, i: nat)
    requires i <= |layers|
    requires forall j :: 0 <= j < i ==> key !in layers[j]
    ensures i < |layers| && key in layers[i] ==> Lookup(layers, key, default) == layers[i][key]
    ensures i == |layers| ==> Lookup(layers, key, default) == default
    decreases i
  {
    if i > 0 {
      LookupFirstHolder(layers[1..], key, default, i - 1);
    }
  }

  // ---------------------------------------------------------------------
  // load_config
  // ---------------------------------------------------------------------

  /** The three local sources: process environment, agent `.env` file, `config.json`. */
  datatype Sources = Sources(env: Layer, agentEnv: Layer, fileConfig: Layer)

  datatype Settings = Settings(
    privateKey: string,
    exchangeUrl: string,
    exchangeWsUrl: string,
    chainId: int,
    exchangeAddress: string,
    vaultAddress: string,
    usdcAddress: string,
    rpcUrl: string,
    network: string,
    maxPositionUsdc: real,
    defaultOrderSizeUsdc: real,
    pnlTargetDaily: real,
    maxExposurePct: real,
    stopLossPct: real)

  /** `int(...)` or `float(...)` raised `ValueError` on the named setting. */
  datatype ConfigError = InvalidNumber(key: string)

  /** The network named by the process environment alone, as `load_config` selects its preset. */
  function SelectedNetwork(src: Sources): string {
    if "NETWORK" in src.env then src.env["NETWORK"] else DefaultNetwork
  }

  /** `EXCHANGE_URL`: environment, then agent file, then `config.json`, then the local default. */
  function ExchangeUrl(src: Sources): string {
    Lookup([src.env, src.agentEnv, src.fileConfig], "EXCHANGE_URL", DefaultExchangeUrl)
  }

  /** The five layers of `get`, highest priority first. */
  function Layers(src: Sources, remote: Layer): seq<Layer> {
    [src.env, src.agentEnv, src.fileConfig, remote, Preset(SelectedNetwork(src))]
  }

  /** The layers `load_config` reads, with the exchange service asked at the resolved `EXCHANGE_URL`. */
  function LoadLayers(src: Sources, fetch: string -> RemoteReply): seq<Layer> {
    Layers(src, FetchExchangeConfig(fetch(ExchangeUrl(src))))
  }

  /** `float(get(key, default))`. */
  function Limit(layers: seq<Layer>, key: string, default: string): Result<real, ConfigError> {
    match ParseFloat(Lookup(layers, key, default))
    case Some(v) => Ok(v)
    case None => Err(InvalidNumber(key))
  }

  /** The five risk limits `load_config` reads, with their default texts. */
  predicate LimitsParse(layers: seq<Layer>) {
    && Limit(layers, "MAX_POSITION_USDC", "50").Ok?
    && Limit(layers, "DEFAULT_ORDER_SIZE_USDC", "5").Ok?
    && Limit(layers, "PNL_TARGET_DAILY", "25").Ok?
    && Limit(layers, "MAX_EXPOSURE_PCT", "70").Ok?
    && Limit(layers, "STOP_LOSS_PCT", "20").Ok?
  }

  function LimitValues(layers: seq<Layer>): seq<real>
    requires LimitsParse(layers)
  {
    [Limit(layers, "MAX_POSITION_USDC", "50").value,
     Limit(layers, "DEFAULT_ORDER_SIZE_USDC", "5").value,
     Limit(layers, "PNL_TARGET_DAILY", "25").value,
     Limit(layers, "MAX_EXPOSURE_PCT", "70").value,
     Limit(layers, "STOP_LOSS_PCT", "20").value]
  }

  function LimitsOf(cfg: Settings): seq<real> {
    [cfg.maxPositionUsdc, cfg.defaultOrderSizeUsdc, cfg.pnlTargetDaily, cfg.maxExposurePct, cfg.stopLossPct]
  }

  /**
   `load_config`. `fetch` is the exchange service's reply to
   `GET {EXCHANGE_URL}/api/config`. The settings are built in the source's
   order, so the first unparseable number is the error reported.
   */
  function LoadConfig(src: Sources, fetch: string -> RemoteReply): (r: Result<Settings, ConfigError>)
    ensures r.Ok? ==> r.value.exchangeUrl == ExchangeUrl(src)
    ensures ParseInt(Lookup(LoadLayers(src, fetch), "CHAIN_ID", "")).None? ==> r == Err(InvalidNumber("CHAIN_ID"))
    ensures r.Ok? <==> ParseInt(Lookup(LoadLayers(src, fetch), "CHAIN_ID", "")).Some? && LimitsParse(LoadLayers(src, fetch))
    ensures r.Ok? ==> ParseInt(Lookup(LoadLayers(src, fetch), "CHAIN_ID", "")) == Some(r.value.chainId)
    ensures r.Ok? ==> LimitsOf(r.value) == LimitValues(LoadLayers(src, fetch))
    ensures r.Ok? ==> r.value.privateKey == Lookup(LoadLayers(src, fetch), "PRIVATE_KEY", "")
    ensures r.Ok? ==> r.value.exchangeWsUrl == Lookup(LoadLayers(src, fetch), "EXCHANGE_WS_URL", "ws://localhost:3002")
    ensures r.Ok? ==> r.value.exchangeAddress == Lookup(LoadLayers(src, fetch), "EXCHANGE_ADDRESS", "")
    ensures r.Ok? ==> r.value.vaultAddress == Lookup(LoadLayers(src, fetch), "VAULT_ADDRESS", "")
    ensures r.Ok? ==> r.value.usdcAddress == Lookup(LoadLayers(src, fetch), "USDC_ADDRESS", "")
    ensures r.Ok? ==> r.value.rpcUrl == Lookup(LoadLayers(src, fetch), "RPC_URL", "")
    ensures r.Ok? ==> r.value.network == Lookup(LoadLayers(src, fetch), "NETWORK", SelectedNetwork(src))
  {
    var url := ExchangeUrl(src);
    var layers := LoadLayers(src, fetch);
    match ParseInt(Lookup(layers, "CHAIN_ID", ""))
    case None => Err(InvalidNumber("CHAIN_ID"))
    case Some(chainId) =>
      var maxPosition :- Limit(layers, "MAX_POSITION_USDC", "50");
      var orderSize :- Limit(layers, "DEFAULT_ORDER_SIZE_USDC", "5");
      var pnlTarget :- Limit(layers, "PNL_TARGET_DAILY", "25");
      var maxExposure :- Limit(layers, "MAX_EXPOSURE_PCT", "70");
      var stopLoss :- Limit(layers, "STOP_LOSS_PCT", "20");
      Ok(Settings(
        privateKey := Lookup(layers, "PRIVATE_KEY", ""),
        exchangeUrl := url,
        exchangeWsUrl := Lookup(layers, "EXCHANGE_WS_URL", "ws://localhost:3002"),
        chainId := chainId,
        exchangeAddress := Lookup(layers, "EXCHANGE_ADDRESS", ""),
        vaultAddress := Lookup(layers, "VAULT_ADDRESS", ""),
        usdcAddress := Lookup(layers, "USDC_ADDRESS", ""),
        rpcUrl := Lookup(layers, "RPC_URL", ""),
        network := Lookup(layers, "NETWORK", SelectedNetwork(src)),
        maxPositionUsdc := maxPosition,
        defaultOrderSizeUsdc := orderSize,
        pnlTargetDaily := pnlTarget,
        maxExposurePct := maxExposure,
        stopLossPct := stopLoss))
  }

  /** The settings `load_config` converts with `int(...)` or `float(...)`. */
  const NumericKeys: set<string> :=
    {"CHAIN_ID", "MAX_POSITION_USDC", "DEFAULT_ORDER_SIZE_USDC", "PNL_TARGET_DAILY", "MAX_EXPOSURE_PCT", "STOP_LOSS_PCT"}

  /** The settings `load_config` keeps as text. */
  datatype TextKey = PrivateKey | ExchangeWsUrl | ExchangeAddress | VaultAddress | UsdcAddress | RpcUrl | Network

  function KeyName(k: TextKey): string {
    match k
    case PrivateKey => "PRIVATE_KEY"
    case ExchangeWsUrl => "EXCHANGE_WS_URL"
    case ExchangeAddress => "EXCHANGE_ADDRESS"
    case VaultAddress => "VAULT_ADDRESS"
    case UsdcAddress => "USDC_ADDRESS"
    case RpcUrl => "RPC_URL"
    case Network => "NETWORK"
  }

  /** The default `get` is given for each text setting. */
  function TextDefault(k: TextKey, selected: string): string {
    match k
    case ExchangeWsUrl => "ws://localhost:3002"
    case Network => selected
    case _ => ""
  }

  /** The text setting stored under a key. */
  function TextSetting(cfg: Settings, k: TextKey): string {
    match k
    case PrivateKey => cfg.privateKey
    case ExchangeWsUrl => cfg.exchangeWsUrl
    case ExchangeAddress => cfg.exchangeAddress
    case VaultAddress => cfg.vaultAddress
    case UsdcAddress => cfg.usdcAddress
    case RpcUrl => cfg.rpcUrl
    case Network => cfg.network
  }

  lemma TextSettingIsLookup(src: Sources, fetch: string -> RemoteReply, k: TextKey)
    requires ParseInt(Lookup(LoadLayers(src, fetch), "CHAIN_ID", "")).Some? && LimitsParse(LoadLayers(src, fetch))
    ensures LoadConfig(src, fetch).Ok?
    ensures TextSetting(LoadConfig(src, fetch).value, k)
            == Lookup(LoadLayers(src, fetch), KeyName(k), TextDefault(k, SelectedNetwork(src)))
  {
  }

  /**
   Six-level precedence for every text setting: process environment, agent
   file, `config.json`, exchange service, network preset, default. The value
   comes from the first of the five layers holding the key; when none holds
   it the setting is its default.
   */
  lemma TextSettingPrecedence(src: Sources, fetch: string -> RemoteReply, k: TextKey, i: nat)
    requires ParseInt(Lookup(LoadLayers(src, fetch), "CHAIN_ID", "")).Some? && LimitsParse(LoadLayers(src, fetch))
    requires i <= 5
    requires forall j :: 0 <= j < i ==> KeyName(k) !in LoadLayers(src, fetch)[j]
    requires i < 5 ==> KeyName(k) in LoadLayers(src, fetch)[i]
    ensures LoadConfig(src, fetch).Ok?
    ensures i < 5 ==> TextSetting(LoadConfig(src, fetch).value, k) == LoadLayers(src, fetch)[i][KeyName(k)]
    ensures i == 5 ==> TextSetting(LoadConfig(src, fetch).value, k) == TextDefault(k, SelectedNetwork(src))
  {
    var layers := LoadLayers(src, fetch);
    TextSettingIsLookup(src, fetch, k);
    LookupFirstHolder(layers, KeyName(k), TextDefault(k, SelectedNetwork(src)), i);
  }

  /**
   `EXCHANGE_URL` comes from the process environment, then the agent file,
   then `config.json`, and is `http://localhost:3002` otherwise; the
   exchange service and the presets never set it.
   */
  lemma ExchangeUrlPrecedence(src: Sources)
    ensures "EXCHANGE_URL" in src.env ==> ExchangeUrl(src) == src.env["EXCHANGE_URL"]
    ensures "EXCHANGE_URL" !in src.env && "EXCHANGE_URL" in src.agentEnv ==> ExchangeUrl(src) == src.agentEnv["EXCHANGE_URL"]
    ensures "EXCHANGE_URL" !in src.env && "EXCHANGE_URL" !in src.agentEnv && "EXCHANGE_URL" in src.fileConfig
            ==> ExchangeUrl(src) == src.fileConfig["EXCHANGE_URL"]
    ensures "EXCHANGE_URL" !in src.env && "EXCHANGE_URL" !in src.agentEnv && "EXCHANGE_URL" !in src.fileConfig
            ==> ExchangeUrl(src) == DefaultExchangeUrl
  {
    var layers := [src.env, src.agentEnv, src.fileConfig];
    LookupFirstHolder(layers, "EXCHANGE_URL", DefaultExchangeUrl, 0);
    if "EXCHANGE_URL" !in src.env {
      LookupFirstHolder(layers, "EXCHANGE_URL", DefaultExchangeUrl, 1);
      if "EXCHANGE_URL" !in src.agentEnv {
        LookupFirstHolder(layers, "EXCHANGE_URL", DefaultExchangeUrl, 2);
        if "EXCHANGE_URL" !in src.fileConfig {
          LookupFirstHolder(layers, "EXCHANGE_URL", DefaultExchangeUrl, 3);
        }
      }
    }
  }

  lemma ParseTestnetChainId()
    ensures ParseInt("10143") == Some(10143)
  {
    assert Decimal(1) == "1";
    assert Decimal(10) == "10";
    assert Decimal(101) == "101";
    assert Decimal(1014) == "1014";
    assert Decimal(10143) == "10143";
    IntRoundTrip(10143);
  }

  lemma DefaultTexts()
    ensures Decimal(50) == "50" && Decimal(5) == "5" && Decimal(25) == "25"
    ensures Decimal(70) == "70" && Decimal(20) == "20"
  {
    assert Decimal(2) == "2" && Decimal(7) == "7";
  }

  /** The local sources hold no numeric risk limit. */
  predicate NoLocalLimits(src: Sources) {
    forall key :: key in NumericKeys - {"CHAIN_ID"} ==>
      key !in src.env && key !in src.agentEnv && key !in src.fileConfig
  }

  /** A risk limit no layer holds is parsed from its default text. */
  lemma DefaultLimit(src: Sources, remote: Layer, key: string, n: nat)
    requires NoLocalLimits(src) && remote.Keys <= RemoteKeys
    requires key in NumericKeys - {"CHAIN_ID"}
    ensures Limit(Layers(src, remote), key, Decimal(n)) == Ok(n as real)
  {
    LookupFirstHolder(Layers(src, remote), key, Decimal(n), 5);
    FloatOfDecimal(n);
  }

  /** With no local risk limits every limit takes its default. */
  lemma AllDefaultLimits(src: Sources, remote: Layer)
    requires NoLocalLimits(src) && remote.Keys <= RemoteKeys
    ensures Limit(Layers(src, remote), "MAX_POSITION_USDC", "50") == Ok(50.0)
    ensures Limit(Layers(src, remote), "DEFAULT_ORDER_SIZE_USDC", "5") == Ok(5.0)
    ensures Limit(Layers(src, remote), "PNL_TARGET_DAILY", "25") == Ok(25.0)
    ensures Limit(Layers(src, remote), "MAX_EXPOSURE_PCT", "70") == Ok(70.0)
    ensures Limit(Layers(src, remote), "STOP_LOSS_PCT", "20") == Ok(20.0)
  {
    DefaultTexts();
    DefaultLimit(src, remote, "MAX_POSITION_USDC", 50);
    DefaultLimit(src, remote, "DEFAULT_ORDER_SIZE_USDC", 5);
    DefaultLimit(src, remote, "PNL_TARGET_DAILY", 25);
    DefaultLimit(src, remote, "MAX_EXPOSURE_PCT", 70);
    DefaultLimit(src, remote, "STOP_LOSS_PCT", 20);
  }

  /**
   Unset risk limits take their defaults: 50 USDC maximum position, 5 USDC
   order size, 25 USDC daily target, 70% exposure and 20% stop-loss, and
   loading then fails only on an unparseable chain id. Neither the exchange
   service nor a preset can supply a limit.
   */
  lemma DefaultLimits(src: Sources, fetch: string -> RemoteReply)
    requires NoLocalLimits(src)
    ensures LoadConfig(src, fetch).Ok?
            <==> ParseInt(Lookup(Layers(src, FetchExchangeConfig(fetch(ExchangeUrl(src)))), "CHAIN_ID", "")).Some?
    ensures LoadConfig(src, fetch).Ok? ==>
              && LoadConfig(src, fetch).value.maxPositionUsdc == 50.0
              && LoadConfig(src, fetch).value.defaultOrderSizeUsdc == 5.0
              && LoadConfig(src, fetch).value.pnlTargetDaily == 25.0
              && LoadConfig(src, fetch).value.maxExposurePct == 70.0
              && LoadConfig(src, fetch).value.stopLossPct == 20.0
  {
    AllDefaultLimits(src, FetchExchangeConfig(fetch(ExchangeUrl(src))));
  }

  /**
   An unrecognised `NETWORK` in the process environment selects the testnet
   preset: with no other source of `CHAIN_ID` or `RPC_URL` the chain is
   10143 and the RPC endpoint the testnet one.
   */
  lemma UnknownNetworkUsesTestnet(src: Sources, fetch: string -> RemoteReply)
    requires SelectedNetwork(src) !in Networks
    requires NoLocalLimits(src)
    requires forall j :: 0 <= j < 4 ==> "CHAIN_ID" !in LoadLayers(src, fetch)[j]
    requires forall j :: 0 <= j < 4 ==> "RPC_URL" !in LoadLayers(src, fetch)[j]
    ensures LoadConfig(src, fetch).Ok?
    ensures LoadConfig(src, fetch).value.chainId == 10143
    ensures LoadConfig(src, fetch).value.rpcUrl == "https://testnet-rpc.monad.xyz"
  {
    TestnetLayers(src, fetch);
    ParseTestnetChainId();
  }

  /** The layers behind `UnknownNetworkUsesTestnet`: the preset supplies chain and RPC, and every limit parses. */
  lemma TestnetLayers(src: Sources, fetch: string -> RemoteReply)
    requires SelectedNetwork(src) !in Networks
    requires NoLocalLimits(src)
    requires forall j :: 0 <= j < 4 ==> "CHAIN_ID" !in LoadLayers(src, fetch)[j]
    requires forall j :: 0 <= j < 4 ==> "RPC_URL" !in LoadLayers(src, fetch)[j]
    ensures Lookup(LoadLayers(src, fetch), "CHAIN_ID", "") == "10143"
    ensures Lookup(LoadLayers(src, fetch), "RPC_URL", "") == "https://testnet-rpc.monad.xyz"
    ensures LimitsParse(LoadLayers(src, fetch))
  {
    var layers := LoadLayers(src, fetch);
    assert layers[4] == Testnet;
    LookupFirstHolder(layers, "CHAIN_ID", "", 4);
    LookupFirstHolder(layers, "RPC_URL", "", 4);
    AllDefaultLimits(src, FetchExchangeConfig(fetch(ExchangeUrl(src))));
  }

  /**
   The exchange service fills the gaps the local sources leave: with no
   local `CHAIN_ID` and no local risk limit, a usable reply's truthy chain id
   is the chain loaded, and its vault address is used whenever no local
   source sets one.
   */
  lemma ServiceSuppliesUnsetSettings(src: Sources, fetch: string -> RemoteReply)
    requires NoLocalLimits(src)
    requires "CHAIN_ID" !in src.env && "CHAIN_ID" !in src.agentEnv && "CHAIN_ID" !in src.fileConfig
    requires UsableReply(fetch(ExchangeUrl(src))) && Truthy(fetch(ExchangeUrl(src)).body.value.chainId)
    ensures LoadConfig(src, fetch).Ok?
    ensures LoadConfig(src, fetch).value.chainId == fetch(ExchangeUrl(src)).body.value.chainId.value
    ensures (&& "VAULT_ADDRESS" !in src.env && "VAULT_ADDRESS" !in src.agentEnv && "VAULT_ADDRESS" !in src.fileConfig
             && fetch(ExchangeUrl(src)).body.value.contracts.Contracts?
             && TruthyText(fetch(ExchangeUrl(src)).body.value.contracts.vault))
            ==> LoadConfig(src, fetch).value.vaultAddress == fetch(ExchangeUrl(src)).body.value.contracts.vault.value
  {
    var remote := FetchExchangeConfig(fetch(ExchangeUrl(src)));
    assert LoadLayers(src, fetch) == Layers(src, remote);
    ServiceLayers(src, remote, "CHAIN_ID");
    AllDefaultLimits(src, remote);
    if "VAULT_ADDRESS" !in src.env && "VAULT_ADDRESS" !in src.agentEnv && "VAULT_ADDRESS" !in src.fileConfig
       && "VAULT_ADDRESS" in remote
    {
      ServiceLayers(src, remote, "VAULT_ADDRESS");
    }
  }

  /** The layers behind `ServiceSuppliesUnsetSettings`: a key no local source sets is read from the service. */
  lemma ServiceLayers(src: Sources, remote: Layer, key: string)
    requires key !in src.env && key !in src.agentEnv && key !in src.fileConfig && key in remote
    ensures Lookup(Layers(src, remote), key, "") == remote[key]
  {
    var layers := Layers(src, remote);
    assert layers[3] == remote;
    LookupFirstHolder(layers, key, "", 3);
  }

  /**
   The preset is chosen from the process environment alone, while the
   reported `NETWORK` follows all layers: `NETWORK=mainnet` in the agent file
   reports mainnet yet keeps the testnet chain id 10143.
   */
  lemma AgentNetworkKeepsTestnetPreset(fetch: string -> RemoteReply)
    requires forall url :: fetch(url) == Raised
    ensures var src := Sources(map[], map["NETWORK" := "mainnet"], map[]);
            && LoadConfig(src, fetch).Ok?
            && LoadConfig(src, fetch).value.network == "mainnet"
            && LoadConfig(src, fetch).value.chainId == 10143
  {
    var src := Sources(map[], map["NETWORK" := "mainnet"], map[]);
    assert SelectedNetwork(src) == "testnet";
    var remote := FetchExchangeConfig(fetch(ExchangeUrl(src)));
    assert remote == map[];
    var layers := Layers(src, remote);
    assert layers[4] == Testnet;
    LookupFirstHolder(layers, "CHAIN_ID", "", 4);
    LookupFirstHolder(layers, "NETWORK", "testnet", 1);
    ParseTestnetChainId();
    AllDefaultLimits(src, remote);
  }

  /** `require_private_key`: an empty key is an error, any other is returned. */
  function RequirePrivateKey(cfg: Settings): (r: Option<string>)
    ensures r.Some? <==> cfg.privateKey != ""
    ensures r.Some? ==> r.value == cfg.privateKey
  {
    if cfg.privateKey == "" then None else Some(cfg.privateKey)
  }
}

=== FILE: market_analysis.dfy ===
/**
 Edge signals for a prediction market (`tools/market_analysis.py`): spreads,
 buy-both and mint-and-sell arbitrage, spread capture, order-book depth and
 top-of-book size, and the loop that picks which markets to analyse.

 Each of the three HTTP fetches per market is a `Reply` parameter. Prices
 are integer basis points; amounts are raw six-decimal USDC units.
 */
module MarketAnalysis {
  import opened Base
  import opened Units

  // ---------------------------------------------------------------------
  // Fair price and spread section (`/api/fair-price/:marketId`)
  // ---------------------------------------------------------------------

  /** The fair-price body; a key the server leaves out is `None`. */
  datatype FairPriceQuote = FairPriceQuote(
    yesBestBid: Option<int>,
    yesBestAsk: Option<int>,
    noBestBid: Option<int>,
    noBestAsk: Option<int>,
    yesFairPrice: Option<int>,
    noFairPrice: Option<int>,
    hasLiquidity: Option<bool>)

  /**
   The fields the section adds. Arbitrage edges are percentages of a dollar
   and spread captures are dollars per share; both are exact for integer
   basis-point quotes, which the source rounds to 2 and 4 places.
   */
  datatype QuoteSignals = QuoteSignals(
    quote: FairPriceQuote,
    hasLiquidity: bool,
    yesSpread: Option<int>,
    noSpread: Option<int>,
    buyBothCost: Option<int>,
    arbBuyBoth: Option<real>,
    sellBothRevenue: Option<int>,
    arbMintSell: Option<real>,
    yesNoSum: Option<int>,
    yesSpreadCapture: Option<real>,
    noSpreadCapture: Option<real>)

  /** A basis-point amount as a percentage of a dollar. */
  function Percent(bps: int): (p: real)
    ensures p * PricePrecision as real == bps as real * 100.0
  {
    bps as real * 100.0 / PricePrecision as real
  }

  /** `ask - bid` for one outcome, emitted only when both quotes are truthy. */
  function Spread(bid: Option<int>, ask: Option<int>): Option<int> {
    if Truthy(bid) && Truthy(ask) then Some(ask.value - bid.value) else None
  }

  /** The sum of two truthy quotes. */
  function PairSum(a: Option<int>, b: Option<int>): Option<int> {
    if Truthy(a) && Truthy(b) then Some(a.value + b.value) else None
  }

  /** The spread in dollars per share. */
  function Capture(spread: Option<int>): Option<real> {
    match spread
    case Some(s) => Some(s as real / PricePrecision as real)
    case None => None
  }

  /** The signals derived from one fair-price body. */
  function Signals(q: FairPriceQuote): (r: QuoteSignals)
    ensures r.quote == q
    ensures r.hasLiquidity == q.hasLiquidity.GetOr(false)
    ensures r.yesSpread.Some? <==> Truthy(q.yesBestBid) && Truthy(q.yesBestAsk)
    ensures r.yesSpread.Some? ==> r.yesSpread.value == q.yesBestAsk.value - q.yesBestBid.value
    ensures r.noSpread.Some? <==> Truthy(q.noBestBid) && Truthy(q.noBestAsk)
    ensures r.noSpread.Some? ==> r.noSpread.value == q.noBestAsk.value - q.noBestBid.value
    ensures r.buyBothCost.Some? <==> Truthy(q.yesBestAsk) && Truthy(q.noBestAsk)
    ensures r.buyBothCost.Some? ==> r.buyBothCost.value == q.yesBestAsk.value + q.noBestAsk.value
    ensures r.arbBuyBoth.Some? <==> r.buyBothCost.Some?
    ensures r.arbBuyBoth.Some? ==> r.arbBuyBoth.value == Percent(PricePrecision - r.buyBothCost.value)
    ensures r.arbBuyBoth.Some? ==> (r.arbBuyBoth.value > 0.0 <==> r.buyBothCost.value < PricePrecision)
    ensures r.sellBothRevenue.Some? <==> Truthy(q.yesBestBid) && Truthy(q.noBestBid)
    ensures r.sellBothRevenue.Some? ==> r.sellBothRevenue.value == q.yesBestBid.value + q.noBestBid.value
    ensures r.arbMintSell.Some? <==> r.sellBothRevenue.Some?
    ensures r.arbMintSell.Some? ==> r.arbMintSell.value == Percent(r.sellBothRevenue.value - PricePrecision)
    ensures r.arbMintSell.Some? ==> (r.arbMintSell.value > 0.0 <==> r.sellBothRevenue.value > PricePrecision)
    ensures r.yesNoSum.Some? <==> Truthy(q.yesFairPrice) && Truthy(q.noFairPrice)
    ensures r.yesNoSum.Some? ==> r.yesNoSum.value == q.yesFairPrice.value + q.noFairPrice.value
    ensures r.yesSpreadCapture.Some? <==> r.yesSpread.Some?
    ensures r.yesSpreadCapture.Some? ==> r.yesSpreadCapture.value * PricePrecision as real == r.yesSpread.value as real
    ensures r.noSpreadCapture.Some? <==> r.noSpread.Some?
    ensures r.noSpreadCapture.Some? ==> r.noSpreadCapture.value * PricePrecision as real == r.noSpread.value as real
  {
    var yesSpread := Spread(q.yesBestBid, q.yesBestAsk);
    var noSpread := Spread(q.noBestBid, q.noBestAsk);
    var buyBoth := PairSum(q.yesBestAsk, q.noBestAsk);
    var sellBoth := PairSum(q.yesBestBid, q.noBestBid);
    QuoteSignals(
      quote := q,
      hasLiquidity := q.hasLiquidity.GetOr(false),
      yesSpread := yesSpread,
      noSpread := noSpread,
      buyBothCost := buyBoth,
      arbBuyBoth := if buyBoth.Some? then Some(Percent(PricePrecision - buyBoth.value)) else None,
      sellBothRevenue := sellBoth,
      arbMintSell := if sellBoth.Some? then Some(Percent(sellBoth.value - PricePrecision)) else None,
      yesNoSum := PairSum(q.yesFairPrice, q.noFairPrice),
      yesSpreadCapture := Capture(yesSpread),
      noSpreadCapture := Capture(noSpread))
  }

  /** A zero quote is treated as missing: no spread, cost or revenue uses it. */
  lemma ZeroQuoteIsMissing(q: FairPriceQuote)
    requires q.yesBestAsk == Some(0)
    ensures Signals(q).yesSpread.None?
    ensures Signals(q).buyBothCost.None? && Signals(q).arbBuyBoth.None?
    ensures Signals(q).yesSpreadCapture.None?
  {
  }

  /**
   The two arbitrage edges together are minus the two spreads, so on a book
   whose spreads are not negative buy-both and mint-and-sell are never both
   profitable.
   */
  lemma ArbitrageEdgesExclusive(q: FairPriceQuote)
    requires Signals(q).yesSpread.Some? && Signals(q).noSpread.Some?
    ensures Signals(q).arbBuyBoth.Some? && Signals(q).arbMintSell.Some?
    ensures Signals(q).arbBuyBoth.value + Signals(q).arbMintSell.value
            == -Percent(Signals(q).yesSpread.value + Signals(q).noSpread.value)
    ensures Signals(q).yesSpread.value >= 0 && Signals(q).noSpread.value >= 0
            ==> !(Signals(q).arbBuyBoth.value > 0.0 && Signals(q).arbMintSell.value > 0.0)
  {
    var s := Signals(q);
    var ya, yb, na, nb := q.yesBestAsk.value, q.yesBestBid.value, q.noBestAsk.value, q.noBestBid.value;
    assert s.arbBuyBoth.value == Percent(PricePrecision - (ya + na));
    assert s.arbMintSell.value == Percent((yb + nb) - PricePrecision);
    assert Percent(PricePrecision - (ya + na)) + Percent((yb + nb) - PricePrecision)
           == Percent((PricePrecision - (ya + na)) + ((yb + nb) - PricePrecision));
  }

  /** YES ask 0.45 and NO ask 0.52 cost 0.97 together: a 3% buy-both edge. */
  lemma BuyBothScenario()
    ensures var q := FairPriceQuote(None, Some(4500), None, Some(5200), None, None, None);
            Signals(q).buyBothCost == Some(9700) && Signals(q).arbBuyBoth == Some(3.0)
  {
  }

  /** The section's outcome: its fields, and whether the request raised. */
  datatype Section<+T> = Section(fields: Option<T>, failed: bool)

  /**
   The fair-price section: a raised request sets only the error flag, a
   non-200 status adds nothing, a 200 adds every signal.
   */
  function QuoteSection(reply: Reply<FairPriceQuote>): (r: Section<QuoteSignals>)
    ensures r.failed <==> reply.Raised?
    ensures r.fields.Some? <==> reply.IsOk()
    ensures r.fields.Some? ==> r.fields.value == Signals(reply.body)
  {
    match reply
    case Raised => Section(None, true)
    case Responded(status, body) => Section(if status == 200 then Some(Signals(body)) else None, false)
  }

  // ---------------------------------------------------------------------
  // Order-book section (`/api/orderbook/:marketId`)
  // ---------------------------------------------------------------------

  /** One price level; `totalAmount` is raw USDC units. */
  datatype Level = Level(totalAmount: Option<int>)

  /** The order-book body; a side the server leaves out is `None` and reads as empty. */
  datatype Book = Book(
    yesBids: Option<seq<Level>>,
    yesAsks: Option<seq<Level>>,
    noBids: Option<seq<Level>>,
    noAsks: Option<seq<Level>>)

  /** Level count, total depth and top-of-book size of one side, in raw units. */
  datatype SideStats = SideStats(levels: nat, depth: int, topSize: int)

  datatype BookSignals = BookSignals(yesBid: SideStats, yesAsk: SideStats, noBid: SideStats, noAsk: SideStats)

  /** Reading `levels[0]["totalAmount"]` raised `KeyError`, which ends the whole run. */
  datatype Crash = MissingTopAmount

  /** The amounts a side adds to its depth: `lvl.get("totalAmount", 0)`. */
  function Amounts(levels: seq<Level>): (r: seq<int>)
    ensures |r| == |levels|
    ensures forall i :: 0 <= i < |levels| ==> r[i] == levels[i].totalAmount.GetOr(0)
  {
    seq(|levels|, i requires 0 <= i < |levels| => levels[i].totalAmount.GetOr(0))
  }

  /** The depth of a side: the sum of its levels' amounts. */
  function Depth(levels: seq<Level>): int {
    Sum(Amounts(levels))
  }

  /** Depth of a side is additive over any split of its levels. */
  lemma DepthAppend(a: seq<Level>, b: seq<Level>)
    ensures Depth(a + b) == Depth(a) + Depth(b)
  {
    assert Amounts(a + b) == Amounts(a) + Amounts(b);
    SumAppend(Amounts(a), Amounts(b));
  }

  /** With non-negative amounts, no single level exceeds the side's depth. */
  lemma DepthBoundsLevels(levels: seq<Level>)
    requires forall i :: 0 <= i < |levels| ==> levels[i].totalAmount.GetOr(0) >= 0
    ensures Depth(levels) >= 0
    ensures forall i :: 0 <= i < |levels| ==> levels[i].totalAmount.GetOr(0) <= Depth(levels)
  {
    SumNonNegative(Amounts(levels));
  }

  /** Top-of-book size: the first level's amount, or 0 for an empty side. */
  function TopSize(levels: seq<Level>): (r: Result<int, Crash>)
    ensures |levels| == 0 ==> r == Ok(0)
    ensures |levels| > 0 ==> (r.Ok? <==> levels[0].totalAmount.Some?)
    ensures |levels| > 0 && r.Ok? ==> r.value == levels[0].totalAmount.value
  {
    if |levels| == 0 then Ok(0)
    else match levels[0].totalAmount
      case Some(a) => Ok(a)
      case None => Err(MissingTopAmount)
  }

  function Side(levels: Option<seq<Level>>): seq<Level> {
    levels.GetOr([])
  }

  /**
   Depth and level counts for every side, then the top sizes in the
   source's order: YES bids, YES asks, NO bids, NO asks.
   */
  function BookStats(b: Book): (r: Result<BookSignals, Crash>)
    ensures r.Ok? ==> r.value.yesBid.levels == |Side(b.yesBids)| && r.value.yesBid.depth == Depth(Side(b.yesBids))
    ensures r.Ok? ==> r.value.yesAsk.levels == |Side(b.yesAsks)| && r.value.yesAsk.depth == Depth(Side(b.yesAsks))
    ensures r.Ok? ==> r.value.noBid.levels == |Side(b.noBids)| && r.value.noBid.depth == Depth(Side(b.noBids))
    ensures r.Ok? ==> r.value.noAsk.levels == |Side(b.noAsks)| && r.value.noAsk.depth == Depth(Side(b.noAsks))
    ensures r.Ok? <==> TopSize(Side(b.yesBids)).Ok? && TopSize(Side(b.yesAsks)).Ok?
                       && TopSize(Side(b.noBids)).Ok? && TopSize(Side(b.noAsks)).Ok?
  {
    var yesBidTop :- TopSize(Side(b.yesBids));
    var yesAskTop :- TopSize(Side(b.yesAsks));
    var noBidTop :- TopSize(Side(b.noBids));
    var noAskTop :- TopSize(Side(b.noAsks));
    Ok(BookSignals(
      SideStats(|Side(b.yesBids)|, Depth(Side(b.yesBids)), yesBidTop),
      SideStats(|Side(b.yesAsks)|, Depth(Side(b.yesAsks)), yesAskTop),
      SideStats(|Side(b.noBids)|, Depth(Side(b.noBids)), noBidTop),
      SideStats(|Side(b.noAsks)|, Depth(Side(b.noAsks)), noAskTop)))
  }

  function BookSection(reply: Reply<Book>): (r: Result<Section<BookSignals>, Crash>)
    ensures r.Ok? ==> (r.value.failed <==> reply.Raised?)
    ensures r.Ok? ==> (r.value.fields.Some? <==> reply.IsOk())
    ensures r.Err? ==> reply.IsOk()
    ensures r.Ok? && reply.IsOk() ==> BookStats(reply.body) == Ok(r.value.fields.value)
    ensures reply.IsOk() ==> (r.Ok? <==> BookStats(reply.body).Ok?)
  {
    match reply
    case Raised => Ok(Section(None, true))
    case Responded(status, body) =>
      if status != 200 then Ok(Section(None, false))
      else
        var signals :- BookStats(body);
        Ok(Section(Some(signals), false))
  }

  // ---------------------------------------------------------------------
  // Market statistics section (`/api/market-stats/:marketId`)
  // ---------------------------------------------------------------------

  datatype MarketStats = MarketStats(
    volume: Option<int>,
    tradeCount: Option<int>,
    lastTradePrice: Option<int>,
    phase: Option<string>,
    handId: Option<int>)

  /** Volume in raw units (absent is 0) and trade count (absent is 0); the rest echoed. */
  datatype StatsSignals = StatsSignals(
    volume: int,
    tradeCount: int,
    lastTradePrice: Option<int>,
    phase: Option<string>,
    handId: Option<int>)

  function StatsSection(reply: Reply<MarketStats>): (r: Section<StatsSignals>)
    ensures r.failed <==> reply.Raised?
    ensures r.fields.Some? <==> reply.IsOk()
    ensures r.fields.Some? ==> r.fields.value.volume == reply.body.volume.GetOr(0)
                               && r.fields.value.tradeCount == reply.body.tradeCount.GetOr(0)
  {
    match reply
    case Raised => Section(None, true)
    case Responded(status, s) =>
      if status != 200 then Section(None, false)
      else Section(Some(StatsSignals(s.volume.GetOr(0), s.tradeCount.GetOr(0), s.lastTradePrice, s.phase, s.handId)), false)
  }

  // ---------------------------------------------------------------------
  // analyze_market
  // ---------------------------------------------------------------------

  /** The three replies fetched for one market. */
  datatype MarketReplies = MarketReplies(fairPrice: Reply<FairPriceQuote>, orderbook: Reply<Book>, stats: Reply<MarketStats>)

  datatype Analysis = Analysis(
    marketId: int,
    quotes: Section<QuoteSignals>,
    orderbook: Section<BookSignals>,
    stats: Section<StatsSignals>)

  /** `analyze_market`: the three sections run one after another, each catching only its own request failure. */
  function AnalyzeMarket(marketId: int, replies: MarketReplies): (r: Result<Analysis, Crash>)
    ensures r.Ok? <==> BookSection(replies.orderbook).Ok?
    ensures r.Ok? ==> r.value.marketId == marketId
    ensures r.Ok? ==> r.value.quotes == QuoteSection(replies.fairPrice)
    ensures r.Ok? ==> Ok(r.value.orderbook) == BookSection(replies.orderbook)
    ensures r.Ok? ==> r.value.stats == StatsSection(replies.stats)
  {
    var book :- BookSection(replies.orderbook);
    Ok(Analysis(marketId, QuoteSection(replies.fairPrice), book, StatsSection(replies.stats)))
  }

  /**
   A failed fetch sets only its own section's error flag: whichever of the
   three requests raises, the other two sections are exactly what they are
   when it succeeds.
   */
  lemma FailedFetchIsIsolated(marketId: int, replies: MarketReplies)
    requires AnalyzeMarket(marketId, replies).Ok?
    ensures var a := AnalyzeMarket(marketId, replies).value;
            var f := AnalyzeMarket(marketId, replies.(fairPrice := Raised));
            && f.Ok? && f.value.quotes == Section(None, true)
            && f.value.orderbook == a.orderbook && f.value.stats == a.stats
    ensures var a := AnalyzeMarket(marketId, replies).value;
            var o := AnalyzeMarket(marketId, replies.(orderbook := Raised));
            && o.Ok? && o.value.orderbook == Section(None, true)
            && o.value.quotes == a.quotes && o.value.stats == a.stats
    ensures var a := AnalyzeMarket(marketId, replies).value;
            var s := AnalyzeMarket(marketId, replies.(stats := Raised));
            && s.Ok? && s.value.stats == Section(None, true)
            && s.value.quotes == a.quotes && s.value.orderbook == a.orderbook
  {
  }

  // ---------------------------------------------------------------------
  // main: which markets to analyse
  // ---------------------------------------------------------------------

  /** An entry of `/api/markets`: its `marketId` and `id` keys. */
  datatype MarketRef = MarketRef(marketId: Option<int>, id: Option<int>)

  /** `m.get("marketId") or m.get("id")`: a zero `marketId` falls through to `id`. */
  function RefId(m: MarketRef): Option<int> {
    if Truthy(m.marketId) then m.marketId else m.id
  }

  lemma ZeroMarketIdFallsThrough(id: Option<int>)
    ensures RefId(MarketRef(Some(0), id)) == id
    ensures RefId(MarketRef(None, id)) == id
  {
  }

  /** The ids of the markets that have one, in list order. */
  function SelectIds(ms: seq<MarketRef>): (r: seq<int>)
    ensures |r| <= |ms|
  {
    if |ms| == 0 then []
    else
      var init := SelectIds(ms[..|ms| - 1]);
      match RefId(ms[|ms| - 1])
      case Some(mid) => init + [mid]
      case None => init
  }

  /** Selection keeps list order: selecting from a concatenation concatenates the selections. */
  lemma {:induction false} SelectIdsAppend(a: seq<MarketRef>, b: seq<MarketRef>)
    ensures SelectIds(a + b) == SelectIds(a) + SelectIds(b)
    decreases |b|
  {
    if |b| > 0 {
      var b' := b[..|b| - 1];
      assert (a + b)[..|a + b| - 1] == a + b';
      SelectIdsAppend(a, b');
    } else {
      assert a + b == a;
    }
  }

  /** Every selected id is the id of some listed market, and exactly the markets with an id are kept. */
  lemma {:induction false} SelectIdsSound(ms: seq<MarketRef>)
    ensures forall k :: 0 <= k < |SelectIds(ms)| ==> exists j :: 0 <= j < |ms| && RefId(ms[j]) == Some(SelectIds(ms)[k])
    ensures |SelectIds(ms)| == |set j | 0 <= j < |ms| && RefId(ms[j]).Some?|
    decreases |ms|
  {
    if |ms| > 0 {
      var init := ms[..|ms| - 1];
      SelectIdsSound(init);
      var last := |ms| - 1;
      var withId := set j | 0 <= j < |ms| && RefId(ms[j]).Some?;
      var initWithId := set j | 0 <= j < |init| && RefId(init[j]).Some?;
      forall k | 0 <= k < |SelectIds(ms)|
        ensures exists j :: 0 <= j < |ms| && RefId(ms[j]) == Some(SelectIds(ms)[k])
      {
        if k < |SelectIds(init)| {
          var j :| 0 <= j < |init| && RefId(init[j]) == Some(SelectIds(init)[k]);
          assert SelectIds(ms)[k] == SelectIds(init)[k];
          assert ms[j] == init[j];
          assert 0 <= j < |ms| && RefId(ms[j]) == Some(SelectIds(ms)[k]);
        } else {
          assert 0 <= last < |ms| && RefId(ms[last]) == Some(SelectIds(ms)[k]);
        }
      }
      if RefId(ms[last]).Some? {
        assert withId == initWithId + {last};
      } else {
        assert withId == initWithId;
      }
    } else {
      assert SelectIds(ms) == [];
    }
  }

  /** The loop of `main` over `/api/markets`. */
  method CollectIds(ms: seq<MarketRef>) returns (ids: seq<int>)
    ensures ids == SelectIds(ms)
  {
    ids := [];
    var i := 0;
    while i < |ms|
      invariant 0 <= i <= |ms|
      invariant ids == SelectIds(ms[..i])
    {
      assert ms[..i + 1][..i] == ms[..i];
      var mid := RefId(ms[i]);
      if mid.Some? {
        ids := ids + [mid.value];
      }
      i := i + 1;
    }
    assert ms[..|ms|] == ms;
  }

  /** Every one of `ids` is analysed without a crash. */
  predicate AllAnalyzable(ids: seq<int>, fetch: int -> MarketReplies) {
    forall k :: 0 <= k < |ids| ==> AnalyzeMarket(ids[k], fetch(ids[k])).Ok?
  }

  /** Analyse each id in turn; the first crash ends the run. */
  function AnalyzeAll(ids: seq<int>, fetch: int -> MarketReplies): (r: Result<seq<Analysis>, Crash>)
    ensures r.Ok? ==> |r.value| == |ids|
    ensures r.Ok? ==> forall k :: 0 <= k < |ids| ==> AnalyzeMarket(ids[k], fetch(ids[k])) == Ok(r.value[k])
    ensures r.Ok? <==> AllAnalyzable(ids, fetch)
  {
    if |ids| == 0 then Ok([])
    else
      var first :- AnalyzeMarket(ids[0], fetch(ids[0]));
      var rest :- AnalyzeAll(ids[1..], fetch);
      assert forall k :: 1 <= k < |ids| ==> ids[k] == ids[1..][k - 1];
      Ok([first] + rest)
  }

  datatype Report = Report(markets: seq<Analysis>, noActiveMarkets: bool)

  datatype AnalysisError = MarketListFailed | Crashed(crash: Crash)

  /** `resp.raise_for_status()` raises for 4xx and 5xx statuses. */
  predicate RaisesForStatus(status: int) {
    400 <= status < 600
  }

  /**
   `main`. With `--market-id` only that market is analysed. Otherwise the
   market list is fetched (a raised request or an error status ends the run),
   an empty list is reported as such, and each listed market with an id is
   analysed in list order.
   */
  function Analyze(
    marketIdArg: Option<int>,
    list: Reply<Option<seq<MarketRef>>>,
    fetch: int -> MarketReplies): (r: Result<Report, AnalysisError>)
    ensures marketIdArg.Some? ==> (r.Ok? <==> AnalyzeMarket(marketIdArg.value, fetch(marketIdArg.value)).Ok?)
    ensures marketIdArg.Some? && r.Ok? ==>
              r.value.markets == [AnalyzeMarket(marketIdArg.value, fetch(marketIdArg.value)).value]
    ensures marketIdArg.Some? && r.Err? ==>
              r.error == Crashed(AnalyzeMarket(marketIdArg.value, fetch(marketIdArg.value)).error)
    ensures marketIdArg.Some? && r.Ok? ==> |r.value.markets| == 1 && r.value.markets[0].marketId == marketIdArg.value
    ensures marketIdArg.None? && (list.Raised? || RaisesForStatus(list.status)) ==> r == Err(MarketListFailed)
    ensures marketIdArg.None? && r.Ok? ==>
              list.Responded? && (r.value.noActiveMarkets <==> |list.body.GetOr([])| == 0)
    ensures marketIdArg.None? && r.Ok? && list.Responded? ==>
              |r.value.markets| == |SelectIds(list.body.GetOr([]))|
              && forall k :: 0 <= k < |r.value.markets| ==> r.value.markets[k].marketId == SelectIds(list.body.GetOr([]))[k]
    ensures marketIdArg.None? && r.Ok? && list.Responded? ==>
              forall k :: 0 <= k < |r.value.markets| ==>
                AnalyzeMarket(SelectIds(list.body.GetOr([]))[k], fetch(SelectIds(list.body.GetOr([]))[k])) == Ok(r.value.markets[k])
    ensures marketIdArg.None? && list.Responded? && !RaisesForStatus(list.status) && |list.body.GetOr([])| > 0 ==>
              (r.Ok? <==> AllAnalyzable(SelectIds(list.body.GetOr([])), fetch))
  {
    match marketIdArg
    case Some(mid) =>
      (match AnalyzeMarket(mid, fetch(mid))
       case Ok(a) => Ok(Report([a], false))
       case Err(c) => Err(Crashed(c)))
    case None =>
      if list.Raised? || RaisesForStatus(list.status) then Err(MarketListFailed)
      else
        var ms := list.body.GetOr([]);
        if |ms| == 0 then Ok(Report([], true))
        else
          var ids := SelectIds(ms);
          match AnalyzeAll(ids, fetch)
          case Ok(results) => Ok(Report(results, false))
          case Err(c) => Err(Crashed(c))
  }
}

=== FILE: place_order.dfy ===
/**
 Order placement (`tools/place_order.py`): validate the price, build and
 sign the order as `sign_order` does, and POST `{"order": signed}` to the
 exchange. The POST is the parameter `post`, and its JSON reply is echoed
 unchanged.
 */
module PlaceOrder {
  import opened Base
  import opened Units
  import Config
  import opened Signing

  /** The required and optional command-line arguments. */
  datatype PlaceArgs = PlaceArgs(
    marketId: int,
    side: Side,
    outcome: OutcomeSide,
    price: real,
    amount: real,
    nonce: Option<int>,
    expiry: Option<int>)

  /** The JSON body of `POST /api/order`. */
  datatype OrderBody = OrderBody(order: SignedOrder)

  datatype Submission = Submission(url: string, body: OrderBody)

  /** `Unencodable` is `encode_typed_data` raising inside `sign_order`. */
  datatype PlaceError = MissingPrivateKey | PriceOutOfRange | Unencodable | SubmitFailed

  /** The decoded body of any answer, whatever its status; `None` when the request raised. */
  function Answer<T>(reply: Reply<T>): Option<T> {
    if reply.Raised? then None else Some(reply.body)
  }

  const OrderPath: string := "/api/order"

  /** `0 < price < 1`; anything else is refused before signing. */
  predicate ValidPrice(price: real) {
    0.0 < price < 1.0
  }

  /** The order `main` signs for these arguments. */
  function PlaceOrderOf(cfg: Config.Settings, args: PlaceArgs, clock: Clock, addressOf: string -> string): Order {
    ArgsOrder(addressOf(cfg.privateKey), clock, args.marketId, args.side, args.outcome, args.price, args.amount,
              args.nonce, args.expiry)
  }

  /**
   `main`. The private key is checked first, then the price range. The
   amount is not checked, so a value no `uint128` holds (a negative amount)
   makes the encoder raise before anything is sent. The signed order goes
   to `EXCHANGE_URL/api/order`, and a request that raises ends the run. Any
   answer the server gives is passed through.
   */
  function Place<T>(
    cfg: Config.Settings, args: PlaceArgs, clock: Clock,
    addressOf: string -> string, signer: TypedSigner,
    post: Submission -> Reply<T>): (r: Result<(Submission, T), PlaceError>)
    ensures cfg.privateKey == "" ==> r == Err(PlaceError.MissingPrivateKey)
    ensures cfg.privateKey != "" && !ValidPrice(args.price) ==> r == Err(PriceOutOfRange)
    ensures cfg.privateKey != "" && ValidPrice(args.price) && !Signable(cfg, PlaceOrderOf(cfg, args, clock, addressOf))
            ==> r == Err(PlaceError.Unencodable)
    ensures (&& cfg.privateKey != "" && ValidPrice(args.price) && Signable(cfg, PlaceOrderOf(cfg, args, clock, addressOf)))
            ==> (&& SignOrderArgs(cfg, cfg.privateKey, addressOf, signer, clock, args.marketId, args.side, args.outcome,
                                  args.price, args.amount, args.nonce, args.expiry).Ok?
                 && var submission := Submission(cfg.exchangeUrl + OrderPath, OrderBody(
                      SignOrderArgs(cfg, cfg.privateKey, addressOf, signer, clock, args.marketId, args.side, args.outcome,
                                    args.price, args.amount, args.nonce, args.expiry).value));
                    && (r.Ok? <==> post(submission).Responded?)
                    && (post(submission).Raised? ==> r == Err(SubmitFailed)))
    ensures r.Ok? ==> ValidPrice(args.price) && 0 <= r.value.0.body.order.price < PricePrecision
    ensures r.Ok? ==> Signable(cfg, PlaceOrderOf(cfg, args, clock, addressOf))
    ensures r.Ok? ==> r.value.0.url == cfg.exchangeUrl + OrderPath
    ensures r.Ok? ==> Ok(r.value.0.body.order)
                      == SignOrderArgs(cfg, cfg.privateKey, addressOf, signer, clock,
                                       args.marketId, args.side, args.outcome, args.price, args.amount,
                                       args.nonce, args.expiry)
    ensures r.Ok? ==> Answer(post(r.value.0)) == Some(r.value.1)
  {
    match Config.RequirePrivateKey(cfg)
    case None => Err(PlaceError.MissingPrivateKey)
    case Some(key) =>
      if !ValidPrice(args.price) then Err(PriceOutOfRange)
      else
        BpsOfValidPrice(args.price);
        match SignOrderArgs(cfg, key, addressOf, signer, clock,
                            args.marketId, args.side, args.outcome, args.price, args.amount,
                            args.nonce, args.expiry)
        case Err(_) => Err(PlaceError.Unencodable)
        case Ok(signed) =>
          var submission := Submission(cfg.exchangeUrl + OrderPath, OrderBody(signed));
          match Answer(post(submission))
          case None => Err(SubmitFailed)
          case Some(data) => Ok((submission, data))
  }

  /**
   The submitted order is exactly what the standalone signer produces for
   the same arguments, so the two tools agree on every valid order.
   */
  lemma PlacedOrderMatchesSigner<T>(
    cfg: Config.Settings, args: PlaceArgs, clock: Clock,
    addressOf: string -> string, signer: TypedSigner, textSigner: TextSigner,
    post: Submission -> Reply<T>)
    requires Place(cfg, args, clock, addressOf, signer, post).Ok?
    ensures var s := SignMain(cfg, SignArgs(OrderKind, Some(args.marketId), Some(args.side), Some(args.outcome),
                                            Some(args.price), Some(args.amount), args.nonce, args.expiry, None),
                              clock, addressOf, signer, textSigner);
            s == Ok(SignedOrderOutput(Place(cfg, args, clock, addressOf, signer, post).value.0.body.order))
  {
  }

  /** A negative amount passes every check `main` makes, and the encoder then refuses it: nothing is posted. */
  lemma NegativeAmountIsNotPosted<T>(
    cfg: Config.Settings, args: PlaceArgs, clock: Clock,
    addressOf: string -> string, signer: TypedSigner, post: Submission -> Reply<T>)
    requires cfg.privateKey != "" && ValidPrice(args.price) && args.amount <= -0.000001
    ensures Place(cfg, args, clock, addressOf, signer, post) == Err(PlaceError.Unencodable)
  {
    EncodableOrder(PlaceOrderOf(cfg, args, clock, addressOf));
  }

  /** A price just under one basis point passes the range check and is signed at 0 bps. */
  lemma SubBasisPointPriceSignsZero<T>(
    cfg: Config.Settings, args: PlaceArgs, clock: Clock,
    addressOf: string -> string, signer: TypedSigner, post: Submission -> Reply<T>)
    requires args.price == 0.00005
    requires Place(cfg, args, clock, addressOf, signer, post).Ok?
    ensures Place(cfg, args, clock, addressOf, signer, post).value.0.body.order.price == 0
  {
    TinyPriceTruncatesToZero();
  }
}

=== FILE: pnl_tracker.dfy ===
/**
 Position valuation (`tools/pnl_tracker.py`). The tool fetches the agent's
 state and values every non-empty position at the market's fair prices.
 A price defaults to one half when the fair-price request fails. It also
 reports the exchange balance and the number of open orders.

 Shares are raw six-decimal units and fair prices are basis points, so one
 share at price `p` is worth `p / 10000` dollars. Values are kept as exact
 reals; the two-place rounding of the report is display only.
 */
module PnlTracker {
  import opened Base
  import opened Text
  import opened Units
  import Config

  /** One entry of `state["positions"]`: either key spelling of each side. */
  datatype Position = Position(yes: Option<int>, yesShares: Option<int>, no: Option<int>, noShares: Option<int>)

  /** `pos.get("yes", pos.get("yesShares", 0))`: a present `yes` key wins even when it is 0. */
  function YesRaw(p: Position): int {
    if p.yes.Some? then p.yes.value else p.yesShares.GetOr(0)
  }

  function NoRaw(p: Position): int {
    if p.no.Some? then p.no.value else p.noShares.GetOr(0)
  }

  /** A position with no shares on either side is skipped. */
  predicate IsEmpty(p: Position) {
    YesRaw(p) == 0 && NoRaw(p) == 0
  }

  /** The fair-price body. */
  datatype FairPrices = FairPrices(yesFairPrice: Option<int>, noFairPrice: Option<int>)

  /** The half-dollar price used when the market's fair price is unknown. */
  const DefaultFairPrice: int := 5000

  /**
   Fair prices in basis points: from a 200 reply, each field or 5000 when it
   is missing; 5000 for both on any other status or a raised request.
   */
  function FairOf(reply: Reply<FairPrices>): (r: (int, int))
    ensures !reply.IsOk() ==> r == (DefaultFairPrice, DefaultFairPrice)
    ensures reply.IsOk() ==> r.0 == reply.body.yesFairPrice.GetOr(DefaultFairPrice)
                             && r.1 == reply.body.noFairPrice.GetOr(DefaultFairPrice)
  {
    if reply.IsOk() then
      (reply.body.yesFairPrice.GetOr(DefaultFairPrice), reply.body.noFairPrice.GetOr(DefaultFairPrice))
    else
      (DefaultFairPrice, DefaultFairPrice)
  }

  /**
   Dollar value of `raw` share units at `bps` basis points, computed as the
   tool does: shares in whole units times the price in dollars.
   */
  function Value(raw: int, bps: int): (v: real)
    ensures v * (UsdcScale * PricePrecision) as real == (raw * bps) as real
    ensures raw >= 0 && bps >= 0 ==> v >= 0.0
  {
    (raw as real / UsdcScale as real) * (bps as real / PricePrecision as real)
  }

  /** Value is linear in the shares: two holdings at one price are worth their sum. */
  lemma ValueAdditive(a: int, b: int, bps: int)
    ensures Value(a + b, bps) == Value(a, bps) + Value(b, bps)
  {
    var s := (UsdcScale * PricePrecision) as real;
    assert Value(a + b, bps) * s == Value(a, bps) * s + Value(b, bps) * s by {
      assert ((a + b) * bps) as real == (a * bps) as real + (b * bps) as real;
    }
  }

  /** At a price between 0 and one dollar, a holding is worth between nothing and its share count. */
  lemma ValueWithinShares(raw: nat, bps: int)
    requires 0 <= bps <= PricePrecision
    ensures 0.0 <= Value(raw, bps) <= raw as real / UsdcScale as real
  {
    var shares := raw as real / UsdcScale as real;
    var price := bps as real / PricePrecision as real;
    assert Value(raw, bps) == shares * price;
    ScaleAtMost(shares, price);
  }

  /** Scaling a non-negative amount by a factor in [0, 1] keeps it between 0 and itself. */
  lemma ScaleAtMost(x: real, f: real)
    requires x >= 0.0 && 0.0 <= f <= 1.0
    ensures 0.0 <= x * f <= x
  {
    assert x - x * f == x * (1.0 - f);
  }

  datatype Detail = Detail(
    marketId: int,
    yesShares: int,
    noShares: int,
    yesFairPrice: int,
    noFairPrice: int,
    yesValue: real,
    noValue: real,
    totalValue: real)

  /** `int(market_id_str)` raised `ValueError` on a position key that is not an integer. */
  datatype PnlError = MissingPrivateKey | StateFetchFailed | InvalidMarketKey(key: string)

  /** The line of the report for one non-empty position. */
  function DetailOf(key: string, p: Position, reply: Reply<FairPrices>): (r: Result<Detail, PnlError>)
    ensures r.Ok? <==> ParseInt(key).Some?
    ensures r.Err? ==> r.error == InvalidMarketKey(key)
    ensures r.Ok? ==> && r.value.marketId == ParseInt(key).value
                      && r.value.yesShares == YesRaw(p) && r.value.noShares == NoRaw(p)
                      && (r.value.yesFairPrice, r.value.noFairPrice) == FairOf(reply)
                      && r.value.yesValue == Value(YesRaw(p), r.value.yesFairPrice)
                      && r.value.noValue == Value(NoRaw(p), r.value.noFairPrice)
                      && r.value.totalValue == r.value.yesValue + r.value.noValue
  {
    match ParseInt(key)
    case None => Err(InvalidMarketKey(key))
    case Some(id) =>
      var (yesFair, noFair) := FairOf(reply);
      var yesValue := Value(YesRaw(p), yesFair);
      var noValue := Value(NoRaw(p), noFair);
      Ok(Detail(id, YesRaw(p), NoRaw(p), yesFair, noFair, yesValue, noValue, yesValue + noValue))
  }

  /** Without a fair price, a position is worth half a dollar per share of either side. */
  lemma UnknownPriceValuesAtHalf(key: string, p: Position, reply: Reply<FairPrices>)
    requires !reply.IsOk() && ParseInt(key).Some?
    ensures DetailOf(key, p, reply).value.totalValue * 2.0 * UsdcScale as real == (YesRaw(p) + NoRaw(p)) as real
  {
  }

  /**
   The report lines for the positions, in order, skipping empty ones; the
   first key that is not an integer ends the run.
   */
  function Details(ps: seq<(string, Position)>, fair: string -> Reply<FairPrices>): Result<seq<Detail>, PnlError> {
    if |ps| == 0 then Ok([])
    else
      var init :- Details(ps[..|ps| - 1], fair);
      var (key, p) := ps[|ps| - 1];
      if IsEmpty(p) then Ok(init)
      else
        var d :- DetailOf(key, p, fair(key));
        Ok(init + [d])
  }

  /** The number of non-empty positions. */
  function NonEmptyCount(ps: seq<(string, Position)>): (n: nat)
    ensures n <= |ps|
  {
    if |ps| == 0 then 0
    else NonEmptyCount(ps[..|ps| - 1]) + if IsEmpty(ps[|ps| - 1].1) then 0 else 1
  }

  /** Sum of the positions' total values. */
  function Totals(ds: seq<Detail>): real {
    if |ds| == 0 then 0.0 else Totals(ds[..|ds| - 1]) + ds[|ds| - 1].totalValue
  }

  /**
   Every non-empty position yields exactly one report line, no empty one
   yields any, and each line carries the shares of a listed position.
   */
  lemma {:induction false} DetailsKeepNonEmpty(ps: seq<(string, Position)>, fair: string -> Reply<FairPrices>)
    requires Details(ps, fair).Ok?
    ensures |Details(ps, fair).value| == NonEmptyCount(ps)
    ensures forall k :: 0 <= k < |Details(ps, fair).value| ==>
              Details(ps, fair).value[k].yesShares != 0 || Details(ps, fair).value[k].noShares != 0
    decreases |ps|
  {
    if |ps| > 0 {
      DetailsKeepNonEmpty(ps[..|ps| - 1], fair);
    }
  }

  /** A failure in a prefix of the positions is the failure of the whole run. */
  lemma {:induction false} DetailsPrefixError(ps: seq<(string, Position)>, i: nat, fair: string -> Reply<FairPrices>)
    requires i <= |ps|
    requires Details(ps[..i], fair).Err?
    ensures Details(ps, fair) == Details(ps[..i], fair)
    decreases |ps| - i
  {
    if i < |ps| {
      var init := ps[..|ps| - 1];
      assert init[..i] == ps[..i];
      DetailsPrefixError(init, i, fair);
    } else {
      assert ps[..i] == ps;
    }
  }

  /** The tool's loop: one pass over the positions, accumulating the total value. */
  method TrackPositions(ps: seq<(string, Position)>, fair: string -> Reply<FairPrices>)
    returns (r: Result<seq<Detail>, PnlError>, total: real)
    ensures r == Details(ps, fair)
    ensures r.Ok? ==> total == Totals(r.value)
  {
    var ds: seq<Detail> := [];
    total := 0.0;
    var i := 0;
    while i < |ps|
      invariant 0 <= i <= |ps|
      invariant Details(ps[..i], fair) == Ok(ds)
      invariant total == Totals(ds)
    {
      assert ps[..i + 1][..i] == ps[..i];
      var (key, p) := ps[i];
      if !IsEmpty(p) {
        var d := DetailOf(key, p, fair(key));
        if d.Err? {
          DetailsPrefixError(ps, i + 1, fair);
          return Err(d.error), total;
        }
        ds := ds + [d.value];
        total := total + d.value.totalValue;
      }
      i := i + 1;
    }
    assert ps[..|ps|] == ps;
    r := Ok(ds);
  }

  /** When every report line is worth at least zero, so is the total. */
  lemma {:induction false} TotalsNonNegative(ds: seq<Detail>)
    requires forall k :: 0 <= k < |ds| ==> ds[k].totalValue >= 0.0
    ensures Totals(ds) >= 0.0
    decreases |ds|
  {
    if |ds| > 0 {
      TotalsNonNegative(ds[..|ds| - 1]);
    }
  }

  /** The `balance` object of the state. */
  datatype BalanceField = BalanceField(available: Option<int>, reserved: Option<int>)

  /** The body of `/api/state/:address`; a key the server leaves out is `None`. */
  datatype State = State(
    positions: Option<seq<(string, Position)>>,
    balance: Option<BalanceField>,
    openOrders: Option<seq<string>>)

  /** The report; balances are raw units. */
  datatype PnlReport = PnlReport(
    address: string,
    available: int,
    reserved: int,
    totalPositionValue: real,
    positionCount: nat,
    positions: seq<Detail>,
    openOrderCount: nat)

  /**
   The wallet to report on: `--address` when given, else the address of
   the configured private key (`derive` stands for `get_address_from_key`).
   */
  function Address(addressArg: Option<string>, cfg: Config.Settings, derive: string -> string): (r: Result<string, PnlError>)
    ensures TruthyText(addressArg) ==> r == Ok(addressArg.value)
    ensures !TruthyText(addressArg) ==> (r.Ok? <==> cfg.privateKey != "")
    ensures !TruthyText(addressArg) && r.Ok? ==> r.value == derive(cfg.privateKey)
  {
    if TruthyText(addressArg) then Ok(addressArg.value)
    else match Config.RequirePrivateKey(cfg)
      case None => Err(MissingPrivateKey)
      case Some(pk) => Ok(derive(pk))
  }

  /**
   `main`: resolve the address, fetch the state (a raised request or a 4xx
   or 5xx status ends the run), value the positions and report.
   */
  function Track(
    addressArg: Option<string>,
    cfg: Config.Settings,
    derive: string -> string,
    fetchState: string -> Reply<State>,
    fair: string -> Reply<FairPrices>): (r: Result<PnlReport, PnlError>)
    ensures r.Ok? ==> Address(addressArg, cfg, derive) == Ok(r.value.address)
    ensures r.Ok? ==> var s := fetchState(r.value.address);
                      && s.Responded? && !(400 <= s.status < 600)
                      && Details(s.body.positions.GetOr([]), fair) == Ok(r.value.positions)
                      && r.value.positionCount == |r.value.positions|
                      && r.value.totalPositionValue == Totals(r.value.positions)
                      && r.value.openOrderCount == |s.body.openOrders.GetOr([])|
    ensures Address(addressArg, cfg, derive).Ok? && fetchState(Address(addressArg, cfg, derive).value).Raised?
            ==> r == Err(StateFetchFailed)
    ensures Address(addressArg, cfg, derive).Err? ==> r == Err(Address(addressArg, cfg, derive).error)
    ensures (&& Address(addressArg, cfg, derive).Ok?
             && var s := fetchState(Address(addressArg, cfg, derive).value);
                s.Responded? && 400 <= s.status < 600)
            ==> r == Err(StateFetchFailed)
    ensures (&& Address(addressArg, cfg, derive).Ok?
             && var s := fetchState(Address(addressArg, cfg, derive).value);
                s.Responded? && !(400 <= s.status < 600))
            ==> (&& var d := Details(fetchState(Address(addressArg, cfg, derive).value).body.positions.GetOr([]), fair);
                    && (r.Ok? <==> d.Ok?)
                    && (r.Err? ==> r == Err(d.error)))
    ensures r.Ok? ==> var b := fetchState(r.value.address).body.balance.GetOr(BalanceField(None, None));
                      r.value.available == b.available.GetOr(0) && r.value.reserved == b.reserved.GetOr(0)
  {
    var address :- Address(addressArg, cfg, derive);
    var reply := fetchState(address);
    if reply.Raised? || 400 <= reply.status < 600 then Err(StateFetchFailed)
    else
      var state := reply.body;
      var details :- Details(state.positions.GetOr([]), fair);
      var balance := state.balance.GetOr(BalanceField(None, None));
      Ok(PnlReport(
        address := address,
        available := balance.available.GetOr(0),
        reserved := balance.reserved.GetOr(0),
        totalPositionValue := Totals(details),
        positionCount := |details|,
        positions := details,
        openOrderCount := |state.openOrders.GetOr([])|))
  }
}

=== FILE: ready_check.dfy ===
/**
 Pre-flight checks (`tools/ready_check.py`). Six checks each give PASS,
 FAIL or SKIP. Later checks are skipped when the ones they depend on did
 not pass. The report gives an overall success flag, a one-line summary
 and the exit code.

 Every probe the checks make (imports, key derivation, HTTP, RPC reads) is
 a field of `Probes`. `None` stands for a probe that raised.
 */
module ReadyCheck {
  import opened Base
  import opened Text
  import Config

  datatype Verdict = Pass | Fail | Skip

  /** The packages `check_deps` imports, in order. */
  const RequiredPackages: seq<string> := ["eth_account", "web3", "requests", "websockets"]

  /** The required packages that fail to import, in the order they are tried. */
  function Missing(pkgs: seq<string>, installed: string -> bool): (r: seq<string>)
    ensures |r| <= |pkgs|
    ensures forall i :: 0 <= i < |r| ==> r[i] in pkgs && !installed(r[i])
  {
    if |pkgs| == 0 then []
    else
      var init := Missing(pkgs[..|pkgs| - 1], installed);
      var p := pkgs[|pkgs| - 1];
      if installed(p) then init else init + [p]
  }

  /** A package is reported missing exactly when it is required and does not import. */
  lemma {:induction false} MissingComplete(pkgs: seq<string>, installed: string -> bool, p: string)
    ensures p in Missing(pkgs, installed) <==> p in pkgs && !installed(p)
    decreases |pkgs|
  {
    if |pkgs| > 0 {
      var init := pkgs[..|pkgs| - 1];
      MissingComplete(init, installed, p);
      assert pkgs == init + [pkgs[|pkgs| - 1]];
    }
  }

  /** `check_deps`: the verdict and the missing packages. */
  function CheckDeps(installed: string -> bool): (r: (Verdict, seq<string>))
    ensures r.1 == Missing(RequiredPackages, installed)
    ensures r.0 == Fail || r.0 == Pass
    ensures r.0 == Fail <==> |r.1| > 0
  {
    var missing := Missing(RequiredPackages, installed);
    (if |missing| > 0 then Fail else Pass, missing)
  }

  /** `check_deps` fails exactly when some required package does not import. */
  lemma DepsFailIffMissing(installed: string -> bool)
    ensures CheckDeps(installed).0 == Fail <==> exists p :: p in RequiredPackages && !installed(p)
  {
    var missing := Missing(RequiredPackages, installed);
    if exists p :: p in RequiredPackages && !installed(p) {
      var p :| p in RequiredPackages && !installed(p);
      MissingComplete(RequiredPackages, installed, p);
    }
    if |missing| > 0 {
      assert missing[0] in RequiredPackages && !installed(missing[0]);
    }
  }

  /**
   `check_config`: an empty key fails, and a key the account library cannot
   read (`derive` gives `None`) fails; otherwise it passes with the
   key's address.
   */
  function CheckConfig(privateKey: string, derive: string -> Option<string>): (r: (Verdict, Option<string>))
    ensures r.0 == Pass <==> privateKey != "" && derive(privateKey).Some?
    ensures r.0 != Skip
    ensures r.0 == Pass ==> r.1 == derive(privateKey)
    ensures r.0 == Fail ==> r.1.None?
  {
    if privateKey == "" then (Fail, None)
    else match derive(privateKey)
      case None => (Fail, None)
      case Some(address) => (Pass, Some(address))
  }

  /** `check_network`: only a 200 from `/api/markets` passes. */
  function CheckNetwork(reply: Reply<()>): (v: Verdict)
    ensures v == Pass <==> reply.IsOk()
    ensures v != Skip
  {
    if reply.IsOk() then Pass else Fail
  }

  /** `check_rpc`: the node must answer with the configured chain id. */
  function CheckRpc(chainId: Option<int>, expected: int): (v: Verdict)
    ensures v == Pass <==> chainId == Some(expected)
    ensures v != Skip
  {
    match chainId
    case Some(id) => if id != expected then Fail else Pass
    case None => Fail
  }

  /** `check_mon`: a positive gas balance passes. */
  function CheckMon(balance: Option<nat>): (v: Verdict)
    ensures v == Pass <==> balance.Some? && balance.value > 0
    ensures v != Skip
  {
    match balance
    case Some(b) => if b > 0 then Pass else Fail
    case None => Fail
  }

  /** `check_vault`: USDC in the vault or in the wallet passes. */
  function CheckVault(balances: Option<(nat, nat)>): (v: Verdict)
    ensures v == Pass <==> balances.Some? && (balances.value.0 > 0 || balances.value.1 > 0)
    ensures v != Skip
  {
    match balances
    case Some((vault, wallet)) => if vault > 0 || wallet > 0 then Pass else Fail
    case None => Fail
  }

  /** The results of every probe the checks could make. */
  datatype Probes = Probes(
    installed: string -> bool,
    derive: string -> Option<string>,
    network: Reply<()>,
    chainId: Option<int>,
    monBalance: string -> Option<nat>,
    usdcBalances: string -> Option<(nat, nat)>)

  datatype Checks = Checks(deps: Verdict, config: Verdict, network: Verdict, rpc: Verdict, mon: Verdict, vault: Verdict)

  datatype Label = DepsLabel | ConfigLabel | NetworkLabel | RpcLabel | MonLabel | VaultLabel

  function LabelName(l: Label): string {
    match l
    case DepsLabel => "DEPS"
    case ConfigLabel => "CONFIG"
    case NetworkLabel => "NETWORK"
    case RpcLabel => "RPC"
    case MonLabel => "MON"
    case VaultLabel => "VAULT"
  }

  /** The labels of the failed checks, in the fixed order DEPS, CONFIG, NETWORK, RPC, MON, VAULT. */
  function FailedLabels(c: Checks): seq<Label> {
    (if c.deps == Fail then [DepsLabel] else [])
    + (if c.config == Fail then [ConfigLabel] else [])
    + (if c.network == Fail then [NetworkLabel] else [])
    + (if c.rpc == Fail then [RpcLabel] else [])
    + (if c.mon == Fail then [MonLabel] else [])
    + (if c.vault == Fail then [VaultLabel] else [])
  }

  datatype ReadyReport = ReadyReport(
    success: bool,
    checks: Checks,
    failures: seq<Label>,
    summary: string,
    address: Option<string>)

  const GreenLight: string := "GREEN LIGHT \U{2014} ready to trade"
  const FailedSuffix: string := " check(s) failed: "

  function Labels(ls: seq<Label>): (r: seq<string>)
    ensures |r| == |ls|
  {
    if |ls| == 0 then [] else [LabelName(ls[0])] + Labels(ls[1..])
  }

  /** The summary line: the green light, or the failure count and labels. */
  function Summary(failures: seq<Label>): string {
    if |failures| == 0 then GreenLight
    else IntToString(|failures|) + FailedSuffix + Join(Labels(failures), ", ")
  }

  /**
   `main`. Each check runs in turn, and each failure is recorded as it
   happens. Config, network and rpc need deps to pass. Mon and vault need
   a derived address and a passing rpc check.
   */
  function Ready(cfg: Config.Settings, p: Probes): (r: ReadyReport)
    ensures r.failures == FailedLabels(r.checks)
    ensures r.checks.deps == CheckDeps(p.installed).0
    ensures r.checks.deps == Pass ==>
              && (r.checks.config, r.address) == CheckConfig(cfg.privateKey, p.derive)
              && r.checks.network == CheckNetwork(p.network)
              && r.checks.rpc == CheckRpc(p.chainId, cfg.chainId)
    ensures r.checks.mon != Skip ==> r.address.Some? && r.checks.mon == CheckMon(p.monBalance(r.address.value))
    ensures r.checks.vault != Skip ==> r.address.Some? && r.checks.vault == CheckVault(p.usdcBalances(r.address.value))
    ensures r.checks.deps != Pass ==> r.checks.config == Skip && r.checks.network == Skip && r.checks.rpc == Skip
    ensures r.checks.deps == Pass ==> r.checks.config != Skip && r.checks.network != Skip && r.checks.rpc != Skip
    ensures r.checks.mon != Skip <==> TruthyText(r.address) && r.checks.rpc == Pass
    ensures r.checks.vault != Skip <==> TruthyText(r.address) && r.checks.rpc == Pass
    ensures r.address.Some? <==> r.checks.config == Pass
    ensures r.success <==> |r.failures| == 0
    ensures r.summary == Summary(r.failures)
  {
    var (deps, _) := CheckDeps(p.installed);
    var (config, address) := if deps == Pass then CheckConfig(cfg.privateKey, p.derive) else (Skip, None);
    var network := if deps == Pass then CheckNetwork(p.network) else Skip;
    var rpc := if deps == Pass then CheckRpc(p.chainId, cfg.chainId) else Skip;
    var probeChain := TruthyText(address) && rpc == Pass;
    var mon := if probeChain then CheckMon(p.monBalance(address.value)) else Skip;
    var vault := if probeChain then CheckVault(p.usdcBalances(address.value)) else Skip;
    var failures :=
      (if deps == Fail then [DepsLabel] else [])
      + (if config == Fail then [ConfigLabel] else [])
      + (if network == Fail then [NetworkLabel] else [])
      + (if rpc == Fail then [RpcLabel] else [])
      + (if mon == Fail then [MonLabel] else [])
      + (if vault == Fail then [VaultLabel] else []);
    ReadyReport(|failures| == 0, Checks(deps, config, network, rpc, mon, vault), failures, Summary(failures), address)
  }

  /** `sys.exit(0 if success else 1)`. */
  function ExitCode(r: ReadyReport): (code: int)
    ensures code == 0 <==> r.success
    ensures code == 0 || code == 1
  {
    if r.success then 0 else 1
  }

  /** The run succeeds exactly when no check failed; skipped checks do not count against it. */
  lemma SuccessIffNoFailure(cfg: Config.Settings, p: Probes)
    ensures var c := Ready(cfg, p).checks;
            Ready(cfg, p).success <==>
              c.deps != Fail && c.config != Fail && c.network != Fail && c.rpc != Fail && c.mon != Fail && c.vault != Fail
  {
  }

  /** When a package is missing, only DEPS fails and everything after it is skipped. */
  lemma MissingPackageSkipsAll(cfg: Config.Settings, p: Probes)
    requires exists pkg :: pkg in RequiredPackages && !p.installed(pkg)
    ensures Ready(cfg, p).checks == Checks(Fail, Skip, Skip, Skip, Skip, Skip)
    ensures Ready(cfg, p).failures == [DepsLabel]
    ensures ExitCode(Ready(cfg, p)) == 1
  {
    DepsFailIffMissing(p.installed);
  }

  /** With everything in place, the run gives the green light and exits 0. */
  lemma AllGood(cfg: Config.Settings, p: Probes, address: string)
    requires forall pkg :: pkg in RequiredPackages ==> p.installed(pkg)
    requires cfg.privateKey != "" && p.derive(cfg.privateKey) == Some(address) && address != ""
    requires p.network.IsOk() && p.chainId == Some(cfg.chainId)
    requires CheckMon(p.monBalance(address)) == Pass && CheckVault(p.usdcBalances(address)) == Pass
    ensures Ready(cfg, p).summary == GreenLight && ExitCode(Ready(cfg, p)) == 0
  {
    DepsFailIffMissing(p.installed);
  }

  /**
   An unreachable exchange API is always reported once dependencies are
   in place: NETWORK is among the failures and the run exits 1.
   */
  lemma NetworkFailureIsReported(cfg: Config.Settings, p: Probes)
    requires forall pkg :: pkg in RequiredPackages ==> p.installed(pkg)
    requires !p.network.IsOk()
    ensures NetworkLabel in Ready(cfg, p).failures
    ensures ExitCode(Ready(cfg, p)) == 1
  {
    DepsFailIffMissing(p.installed);
    var r := Ready(cfg, p);
    assert r.checks.network == Fail;
  }

  /**
   A node on the wrong chain, or one that does not answer, fails RPC and
   skips both balance checks, whatever the balances would have been.
   */
  lemma RpcFailureSkipsBalances(cfg: Config.Settings, p: Probes)
    requires forall pkg :: pkg in RequiredPackages ==> p.installed(pkg)
    requires p.chainId != Some(cfg.chainId)
    ensures Ready(cfg, p).checks.rpc == Fail
    ensures Ready(cfg, p).checks.mon == Skip && Ready(cfg, p).checks.vault == Skip
    ensures RpcLabel in Ready(cfg, p).failures && MonLabel !in Ready(cfg, p).failures
  {
    DepsFailIffMissing(p.installed);
  }

  /** A failing summary starts with the number of failed checks, which `int()` reads back. */
  lemma SummaryCountsFailures(failures: seq<Label>)
    requires |failures| > 0
    ensures var n := IntToString(|failures|);
            Summary(failures)[..|n|] == n && ParseInt(n) == Some(|failures|)
  {
    IntRoundTrip(|failures|);
  }

  /** The green light and a failure summary are never the same line. */
  lemma SummariesDiffer(failures: seq<Label>)
    requires |failures| > 0
    ensures Summary(failures) != GreenLight
  {
    var s := Summary(failures);
    assert IsDigit(s[0]);
    assert GreenLight[0] == 'G';
  }
}

=== FILE: signing.dfy ===
/**
 Order and cancel payloads (`tools/sign_order.py`). An order is signed as
 EIP-712 typed data under the `BlackjackExchange` domain. A cancel is
 signed as an EIP-191 personal message.

 Hashing and ECDSA stay opaque: the signer is a parameter that maps the
 private key and the message to the signature's hex text, and `addressOf`
 is the address of a key.
 */
module Signing {
  import opened Base
  import opened Text
  import opened Units
  import Config

  // ---------------------------------------------------------------------
  // EIP-712 domain and order type
  // ---------------------------------------------------------------------

  /** The `EIP712Domain` fields the exchange signs under. */
  datatype Domain = Domain(name: string, version: string, chainId: int, verifyingContract: string)

  const DomainName: string := "BlackjackExchange"
  const DomainVersion: string := "1"

  /** `build_eip712_domain`: fixed name and version, chain and contract from the configuration. */
  function BuildDomain(cfg: Config.Settings): (d: Domain)
    ensures d.name == DomainName && d.version == DomainVersion
    ensures d.chainId == cfg.chainId && d.verifyingContract == cfg.exchangeAddress
  {
    Domain(DomainName, DomainVersion, cfg.chainId, cfg.exchangeAddress)
  }

  /** The Solidity types the order uses. */
  datatype FieldType = Address | Bool | Uint(bits: nat)

  datatype FieldSpec = FieldSpec(name: string, typ: FieldType)

  /** `ORDER_TYPES["Order"]`, in declaration order. */
  const OrderTypes: seq<FieldSpec> := [
    FieldSpec("trader", Address),
    FieldSpec("marketId", Uint(64)),
    FieldSpec("isBuy", Bool),
    FieldSpec("isYes", Bool),
    FieldSpec("price", Uint(64)),
    FieldSpec("amount", Uint(128)),
    FieldSpec("nonce", Uint(64)),
    FieldSpec("expiry", Uint(64))
  ]

  /** A value of the typed-data message. */
  datatype Value = AddressValue(address: string) | BoolValue(flag: bool) | IntValue(n: int)

  function Pow2(k: nat): (r: nat)
    ensures r >= 1
  {
    if k == 0 then 1 else 2 * Pow2(k - 1)
  }

  lemma {:induction false} Pow2Add(a: nat, b: nat)
    ensures Pow2(a + b) == Pow2(a) * Pow2(b)
    decreases a
  {
    if a > 0 {
      Pow2Add(a - 1, b);
    }
  }

  const MaxUint64: nat := 0x1_0000_0000_0000_0000

  /** A wider `uint` holds at least what a narrower one does. */
  lemma {:induction false} Pow2Monotone(a: nat, b: nat)
    requires a <= b
    ensures Pow2(a) <= Pow2(b)
    decreases b
  {
    if a < b {
      Pow2Monotone(a, b - 1);
    }
  }

  /** The widths the order fields and the domain use, with 2^64 spelt out. */
  lemma Pow2Of64()
    ensures Pow2(64) == MaxUint64
    ensures Pow2(128) >= MaxUint64 && Pow2(256) >= MaxUint64
  {
    assert Pow2(4) == 16;
    Pow2Add(4, 4);
    assert Pow2(8) == 0x100;
    Pow2Add(8, 8);
    assert Pow2(16) == 0x1_0000;
    Pow2Add(16, 16);
    assert Pow2(32) == 0x1_0000_0000;
    Pow2Add(32, 32);
    Pow2Monotone(64, 128);
    Pow2Monotone(64, 256);
  }

  /** A value an EIP-712 encoder accepts for the declared type. */
  predicate Fits(v: Value, t: FieldType) {
    match t
    case Address => v.AddressValue?
    case Bool => v.BoolValue?
    case Uint(bits) => v.IntValue? && 0 <= v.n < Pow2(bits)
  }

  /** The order a signer commits to. */
  datatype Order = Order(
    trader: string,
    marketId: int,
    isBuy: bool,
    isYes: bool,
    price: int,
    amount: int,
    nonce: int,
    expiry: int)

  /** The typed-data message: one named value per field of `ORDER_TYPES`. */
  type Message = seq<(string, Value)>

  /**
   `message_data`: exactly the eight order fields, named and ordered as in
   `ORDER_TYPES`, each of the kind its type declares.
   */
  function OrderMessage(o: Order): (m: Message)
    ensures |m| == |OrderTypes|
    ensures forall i :: 0 <= i < |m| ==> m[i].0 == OrderTypes[i].name
    ensures forall i :: 0 <= i < |m| ==> (m[i].1.IntValue? <==> OrderTypes[i].typ.Uint?)
  {
    [("trader", AddressValue(o.trader)),
     ("marketId", IntValue(o.marketId)),
     ("isBuy", BoolValue(o.isBuy)),
     ("isYes", BoolValue(o.isYes)),
     ("price", IntValue(o.price)),
     ("amount", IntValue(o.amount)),
     ("nonce", IntValue(o.nonce)),
     ("expiry", IntValue(o.expiry))]
  }

  /** Every value fits its declared width; otherwise the encoder refuses the message. */
  predicate Encodable(m: Message) {
    |m| == |OrderTypes| && forall i :: 0 <= i < |m| ==> Fits(m[i].1, OrderTypes[i].typ)
  }

  predicate InUint(n: int, bits: nat) {
    0 <= n < Pow2(bits)
  }

  /** The domain's `chainId` is encoded as a `uint256`. */
  predicate EncodableDomain(d: Domain) {
    InUint(d.chainId, 256)
  }

  /** What `encode_typed_data` accepts: the domain and the order message both fit their types. */
  predicate Signable(cfg: Config.Settings, o: Order) {
    EncodableDomain(BuildDomain(cfg)) && Encodable(OrderMessage(o))
  }

  /** The message of an order can be encoded exactly when its integers fit their widths. */
  lemma EncodableOrder(o: Order)
    ensures Encodable(OrderMessage(o)) <==>
              && InUint(o.marketId, 64) && InUint(o.price, 64) && InUint(o.amount, 128)
              && InUint(o.nonce, 64) && InUint(o.expiry, 64)
  {
    var m := OrderMessage(o);
    if Encodable(m) {
      assert Fits(m[1].1, OrderTypes[1].typ) && Fits(m[4].1, OrderTypes[4].typ) && Fits(m[5].1, OrderTypes[5].typ);
      assert Fits(m[6].1, OrderTypes[6].typ) && Fits(m[7].1, OrderTypes[7].typ);
    }
  }

  /** Read the order back from a message, checking names and kinds. */
  function DecodeOrder(m: Message): Option<Order> {
    if |m| == 8
       && m[0] == ("trader", m[0].1) && m[0].1.AddressValue?
       && m[1] == ("marketId", m[1].1) && m[1].1.IntValue?
       && m[2] == ("isBuy", m[2].1) && m[2].1.BoolValue?
       && m[3] == ("isYes", m[3].1) && m[3].1.BoolValue?
       && m[4] == ("price", m[4].1) && m[4].1.IntValue?
       && m[5] == ("amount", m[5].1) && m[5].1.IntValue?
       && m[6] == ("nonce", m[6].1) && m[6].1.IntValue?
       && m[7] == ("expiry", m[7].1) && m[7].1.IntValue?
    then Some(Order(m[0].1.address, m[1].1.n, m[2].1.flag, m[3].1.flag, m[4].1.n, m[5].1.n, m[6].1.n, m[7].1.n))
    else None
  }

  /** The message determines the order: nothing is lost in building it. */
  lemma MessageRoundTrip(o: Order)
    ensures DecodeOrder(OrderMessage(o)) == Some(o)
  {
  }

  // ---------------------------------------------------------------------
  // Signatures and payloads
  // ---------------------------------------------------------------------

  predicate HasHexPrefix(h: string) {
    |h| >= 2 && h[..2] == "0x"
  }

  /** `_hex_sig`: the hex text with a `0x` prefix, added only when missing. */
  function HexSig(h: string): (r: string)
    ensures HasHexPrefix(r)
    ensures HasHexPrefix(h) ==> r == h
    ensures !HasHexPrefix(h) ==> r[2..] == h
  {
    if HasHexPrefix(h) then h else "0x" + h
  }

  /** Normalising twice is normalising once. */
  lemma HexSigIdempotent(h: string)
    ensures HexSig(HexSig(h)) == HexSig(h)
  {
  }

  /** The signer of typed data: key, domain and message to hex signature. */
  type TypedSigner = (string, Domain, Message) -> string

  /** The signer of a personal message: key and text to hex signature. */
  type TextSigner = (string, string) -> string

  /** The payload `sign_order` returns; `amount` is a decimal string. */
  datatype SignedOrder = SignedOrder(
    trader: string,
    marketId: int,
    isBuy: bool,
    isYes: bool,
    price: int,
    amount: string,
    nonce: int,
    expiry: int,
    signature: string)

  /**
   `sign_order`: the order of the key's address, signed under the
   configured domain. The payload carries the signature of exactly that
   message. `encode_typed_data` raises when an integer does not fit its
   declared `uint` width, and then nothing is signed.
   */
  function SignOrder(
    cfg: Config.Settings, key: string, addressOf: string -> string, signer: TypedSigner,
    marketId: int, isBuy: bool, isYes: bool, price: int, amount: int, nonce: int, expiry: int): (r: Result<SignedOrder, SignError>)
    ensures var o := Order(addressOf(key), marketId, isBuy, isYes, price, amount, nonce, expiry);
            r.Ok? <==> Signable(cfg, o)
    ensures r.Err? ==> r.error == Unencodable
    ensures r.Ok? ==> r.value.trader == addressOf(key)
    ensures var o := Order(addressOf(key), marketId, isBuy, isYes, price, amount, nonce, expiry);
            r.Ok? ==> r.value.signature == HexSig(signer(key, BuildDomain(cfg), OrderMessage(o)))
  {
    var o := Order(addressOf(key), marketId, isBuy, isYes, price, amount, nonce, expiry);
    if !Signable(cfg, o) then Err(Unencodable)
    else
      var sig := signer(key, BuildDomain(cfg), OrderMessage(o));
      Ok(SignedOrder(o.trader, marketId, isBuy, isYes, price, IntToString(amount), nonce, expiry, HexSig(sig)))
  }

  /** The order a payload describes, reading `amount` back with `int()`. */
  function PayloadOrder(s: SignedOrder): Option<Order> {
    match ParseInt(s.amount)
    case Some(a) => Some(Order(s.trader, s.marketId, s.isBuy, s.isYes, s.price, a, s.nonce, s.expiry))
    case None => None
  }

  /** The payload echoes every input: reading it back gives the signed order. */
  lemma PayloadEchoesOrder(
    cfg: Config.Settings, key: string, addressOf: string -> string, signer: TypedSigner,
    marketId: int, isBuy: bool, isYes: bool, price: int, amount: int, nonce: int, expiry: int)
    requires SignOrder(cfg, key, addressOf, signer, marketId, isBuy, isYes, price, amount, nonce, expiry).Ok?
    ensures PayloadOrder(SignOrder(cfg, key, addressOf, signer, marketId, isBuy, isYes, price, amount, nonce, expiry).value)
            == Some(Order(addressOf(key), marketId, isBuy, isYes, price, amount, nonce, expiry))
  {
    IntRoundTrip(amount);
  }

  /** `"Cancel order {order_id}\nTimestamp: {timestamp}"`. */
  function CancelMessage(orderId: string, timestamp: nat): string {
    "Cancel order " + orderId + "\nTimestamp: " + Decimal(timestamp)
  }

  const CancelPrefix: string := "Cancel order "
  const TimestampPrefix: string := "Timestamp: "

  /** What follows `prefix` in `s`, when `s` starts with it. */
  function AfterPrefix(prefix: string, s: string): (r: Option<string>)
    ensures r.Some? ==> s == prefix + r.value
  {
    if |prefix| <= |s| && s[..|prefix|] == prefix then Some(s[|prefix|..]) else None
  }

  lemma AfterPrefixOf(prefix: string, s: string)
    ensures AfterPrefix(prefix, prefix + s) == Some(s)
  {
    assert (prefix + s)[..|prefix|] == prefix;
    assert (prefix + s)[|prefix|..] == s;
  }

  /** Splitting at the first line break of `id + "\n" + rest` when `id` has none. */
  lemma PartitionAtBreak(id: string, rest: string)
    requires '\n' !in id
    ensures '\n' in id + "\n" + rest
    ensures Partition(id + "\n" + rest, '\n') == (id, rest)
  {
    var t := id + "\n" + rest;
    assert t[|id|] == '\n';
    var i := Find(t, '\n');
    assert i == |id|;
    assert t[..i] == id;
    assert t[i + 1..] == rest;
  }

  /** Read the order id and timestamp back from a cancel message. */
  function ParseCancel(msg: string): Option<(string, nat)> {
    match AfterPrefix(CancelPrefix, msg)
    case None => None
    case Some(body) =>
      if '\n' !in body then None
      else
        var (id, rest) := Partition(body, '\n');
        match AfterPrefix(TimestampPrefix, rest)
        case None => None
        case Some(digits) =>
          match ParseDigits(digits)
          case Some(ts) => Some((id, ts))
          case None => None
  }

  /** The cancel text names exactly the order and the timestamp, for any id without a line break. */
  lemma CancelRoundTrip(orderId: string, timestamp: nat)
    requires '\n' !in orderId
    ensures ParseCancel(CancelMessage(orderId, timestamp)) == Some((orderId, timestamp))
  {
    var rest := TimestampPrefix + Decimal(timestamp);
    var body := orderId + "\n" + rest;
    assert CancelMessage(orderId, timestamp) == CancelPrefix + body;
    AfterPrefixOf(CancelPrefix, body);
    PartitionAtBreak(orderId, rest);
    AfterPrefixOf(TimestampPrefix, Decimal(timestamp));
    DecimalRoundTrip(timestamp);
  }

  datatype CancelPayload = CancelPayload(orderId: string, message: string, timestamp: nat, signature: string)

  /** `sign_cancel`: the payload agrees with the message it signs. */
  function SignCancel(key: string, signer: TextSigner, orderId: string, nowMs: nat): (r: CancelPayload)
    ensures r.orderId == orderId && r.timestamp == nowMs
    ensures r.message == CancelMessage(r.orderId, r.timestamp)
    ensures r.signature == HexSig(signer(key, r.message))
  {
    var msg := CancelMessage(orderId, nowMs);
    CancelPayload(orderId, msg, nowMs, HexSig(signer(key, msg)))
  }

  // ---------------------------------------------------------------------
  // Command-line handling shared with order placement
  // ---------------------------------------------------------------------

  datatype Side = Buy | Sell
  datatype OutcomeSide = Yes | No

  /** The clock, read as `int(time.time() * 1000)` and `int(time.time())`. */
  datatype Clock = Clock(ms: nat, sec: nat)

  const ExpiryWindow: nat := 3600

  /** `args.nonce or int(time.time() * 1000)`: an absent or zero nonce is the current time in ms. */
  function NonceOrDefault(nonce: Option<int>, clock: Clock): (r: int)
    ensures Truthy(nonce) ==> r == nonce.value
    ensures !Truthy(nonce) ==> r == clock.ms
  {
    if Truthy(nonce) then nonce.value else clock.ms
  }

  /** `args.expiry or (int(time.time()) + 3600)`: an absent or zero expiry is an hour from now. */
  function ExpiryOrDefault(expiry: Option<int>, clock: Clock): (r: int)
    ensures Truthy(expiry) ==> r == expiry.value
    ensures !Truthy(expiry) ==> r == clock.sec + ExpiryWindow
  {
    if Truthy(expiry) then expiry.value else clock.sec + ExpiryWindow
  }

  /** The defaults never yield zero, so a defaulted nonce or expiry is always truthy. */
  lemma DefaultsAreTruthy(nonce: Option<int>, expiry: Option<int>, clock: Clock)
    requires clock.ms > 0
    ensures NonceOrDefault(nonce, clock) != 0
    ensures ExpiryOrDefault(expiry, clock) != 0
  {
  }

  /**
   The order a command line describes: price and amount converted with
   truncation, the side and outcome as booleans, nonce and expiry defaulted.
   */
  function ArgsOrder(
    trader: string, clock: Clock, marketId: int, side: Side, outcome: OutcomeSide, price: real, amount: real,
    nonce: Option<int>, expiry: Option<int>): Order
  {
    Order(trader, marketId, side == Buy, outcome == Yes, PriceToBps(price), UsdcToRaw(amount),
          NonceOrDefault(nonce, clock), ExpiryOrDefault(expiry, clock))
  }

  /**
   Signing the order a command line describes. It is refused exactly when
   some converted value does not fit its `uint` width, for instance a
   negative price or amount.
   */
  function SignOrderArgs(
    cfg: Config.Settings, key: string, addressOf: string -> string, signer: TypedSigner, clock: Clock,
    marketId: int, side: Side, outcome: OutcomeSide, price: real, amount: real,
    nonce: Option<int>, expiry: Option<int>): (r: Result<SignedOrder, SignError>)
    ensures r.Ok? <==> Signable(cfg, ArgsOrder(addressOf(key), clock, marketId, side, outcome, price, amount, nonce, expiry))
    ensures r.Err? ==> r.error == Unencodable
    ensures r.Ok? ==> (r.value.isBuy <==> side == Buy) && (r.value.isYes <==> outcome == Yes)
    ensures r.Ok? ==> r.value.marketId == marketId && r.value.price == PriceToBps(price)
    ensures r.Ok? ==> PayloadOrder(r.value)
                      == Some(ArgsOrder(addressOf(key), clock, marketId, side, outcome, price, amount, nonce, expiry))
  {
    var r := SignOrder(cfg, key, addressOf, signer,
                       marketId, side == Buy, outcome == Yes, PriceToBps(price), UsdcToRaw(amount),
                       NonceOrDefault(nonce, clock), ExpiryOrDefault(expiry, clock));
    if r.Ok? then
      PayloadEchoesOrder(cfg, key, addressOf, signer, marketId, side == Buy, outcome == Yes,
                         PriceToBps(price), UsdcToRaw(amount), NonceOrDefault(nonce, clock), ExpiryOrDefault(expiry, clock));
      r
    else r
  }

  // ---------------------------------------------------------------------
  // main
  // ---------------------------------------------------------------------

  datatype SignKind = OrderKind | CancelKind

  datatype SignArgs = SignArgs(
    kind: SignKind,
    marketId: Option<int>,
    side: Option<Side>,
    outcome: Option<OutcomeSide>,
    price: Option<real>,
    amount: Option<real>,
    nonce: Option<int>,
    expiry: Option<int>,
    orderId: Option<string>)

  /** The ways `main` ends without output; `Unencodable` is `encode_typed_data` raising. */
  datatype SignError = MissingPrivateKey | MissingOrderFields | MissingOrderId | Unencodable

  datatype SignOutput = SignedOrderOutput(order: SignedOrder) | SignedCancelOutput(cancel: CancelPayload)

  /** All five order fields are given; a market id or price of 0 counts as given. */
  predicate HasOrderFields(a: SignArgs) {
    a.marketId.Some? && a.side.Some? && a.outcome.Some? && a.price.Some? && a.amount.Some?
  }

  /**
   `main`: the private key first, then the fields of the requested kind.
   The price is not range-checked here.
   */
  function SignMain(
    cfg: Config.Settings, args: SignArgs, clock: Clock,
    addressOf: string -> string, typedSigner: TypedSigner, textSigner: TextSigner): (r: Result<SignOutput, SignError>)
    ensures cfg.privateKey == "" ==> r == Err(MissingPrivateKey)
    ensures cfg.privateKey != "" && args.kind == OrderKind ==>
              (r.Ok? <==> HasOrderFields(args)
                          && Signable(cfg, ArgsOrder(addressOf(cfg.privateKey), clock, args.marketId.value, args.side.value,
                                                     args.outcome.value, args.price.value, args.amount.value,
                                                     args.nonce, args.expiry)))
    ensures cfg.privateKey != "" && args.kind == CancelKind ==> (r.Ok? <==> TruthyText(args.orderId))
    ensures r.Ok? && args.kind == OrderKind ==>
              && HasOrderFields(args) && r.value.SignedOrderOutput?
              && r.value.order.marketId == args.marketId.value
              && (r.value.order.isBuy <==> args.side.value == Buy)
              && (r.value.order.isYes <==> args.outcome.value == Yes)
              && r.value.order.price == PriceToBps(args.price.value)
    ensures r.Ok? && args.kind == OrderKind ==>
              && HasOrderFields(args) && r.value.SignedOrderOutput?
              && Ok(r.value.order) == SignOrderArgs(cfg, cfg.privateKey, addressOf, typedSigner, clock,
                                                   args.marketId.value, args.side.value, args.outcome.value,
                                                   args.price.value, args.amount.value, args.nonce, args.expiry)
    ensures cfg.privateKey != "" && args.kind == OrderKind && !HasOrderFields(args) ==> r == Err(MissingOrderFields)
    ensures (&& cfg.privateKey != "" && args.kind == OrderKind && HasOrderFields(args)
             && !Signable(cfg, ArgsOrder(addressOf(cfg.privateKey), clock, args.marketId.value, args.side.value,
                                         args.outcome.value, args.price.value, args.amount.value,
                                         args.nonce, args.expiry)))
            ==> r == Err(Unencodable)
    ensures cfg.privateKey != "" && args.kind == CancelKind && !TruthyText(args.orderId) ==> r == Err(MissingOrderId)
    ensures r.Ok? && args.kind == CancelKind ==>
              r.value.SignedCancelOutput? && r.value.cancel.orderId == args.orderId.value
              && r.value.cancel.message == CancelMessage(args.orderId.value, clock.ms)
  {
    match Config.RequirePrivateKey(cfg)
    case None => Err(MissingPrivateKey)
    case Some(key) =>
      match args.kind
      case OrderKind =>
        if !HasOrderFields(args) then Err(MissingOrderFields)
        else
          var signed :- SignOrderArgs(cfg, key, addressOf, typedSigner, clock,
                                      args.marketId.value, args.side.value, args.outcome.value,
                                      args.price.value, args.amount.value, args.nonce, args.expiry);
          Ok(SignedOrderOutput(signed))
      case CancelKind =>
        if !TruthyText(args.orderId) then Err(MissingOrderId)
        else Ok(SignedCancelOutput(SignCancel(key, textSigner, args.orderId.value, clock.ms)))
  }

  /**
   Without a range check, a price of 1.5 is signed as 15000 basis points:
   it fits `uint64`, so the encoder accepts it.
   */
  lemma SignsOutOfRangePrice(cfg: Config.Settings, clock: Clock, addressOf: string -> string,
                             typedSigner: TypedSigner, textSigner: TextSigner)
    requires cfg.privateKey != ""
    requires 0 <= cfg.chainId < MaxUint64
    requires 0 < clock.ms < MaxUint64 && clock.sec + ExpiryWindow < MaxUint64
    ensures var args := SignArgs(OrderKind, Some(1), Some(Buy), Some(Yes), Some(1.5), Some(10.0), None, None, None);
            var r := SignMain(cfg, args, clock, addressOf, typedSigner, textSigner);
            r.Ok? && r.value.order.price == 15000
  {
    Pow2Of64();
    var o := ArgsOrder(addressOf(cfg.privateKey), clock, 1, Buy, Yes, 1.5, 10.0, None, None);
    assert o.price == 15000 && o.amount == 10000000;
    EncodableOrder(o);
  }

  /**
   A negative amount converts to a negative raw amount, which no `uint128`
   holds: the encoder raises and nothing is signed.
   */
  lemma NegativeAmountIsUnencodable(cfg: Config.Settings, clock: Clock, addressOf: string -> string,
                                    typedSigner: TypedSigner, textSigner: TextSigner, amount: real)
    requires cfg.privateKey != "" && amount <= -0.000001
    ensures var args := SignArgs(OrderKind, Some(1), Some(Buy), Some(Yes), Some(0.5), Some(amount), None, None, None);
            SignMain(cfg, args, clock, addressOf, typedSigner, textSigner) == Err(Unencodable)
  {
    var o := ArgsOrder(addressOf(cfg.privateKey), clock, 1, Buy, Yes, 0.5, amount, None, None);
    assert o.amount < 0;
    EncodableOrder(o);
  }
}

=== FILE: text.dfy ===
/**
 The string handling the tools borrow from Python: `str.strip()`, `str(n)` for
 integers, `int(s)` and `float(s)` on decimal text, `str.partition` and
 `", ".join(...)`.
 */
module Text {
  import opened Base

  /** `str.isspace()` for one character: the ASCII separators and the Unicode spaces. */
  predicate IsSpace(c: char) {
    var n := c as int;
    || 9 <= n <= 13
    || 28 <= n <= 32
    || n == 0x85 || n == 0xA0 || n == 0x1680
    || 0x2000 <= n <= 0x200A
    || n == 0x2028 || n == 0x2029 || n == 0x202F || n == 0x205F || n == 0x3000
  }

  predicate AllSpace(s: string) {
    forall i :: 0 <= i < |s| ==> IsSpace(s[i])
  }

  predicate NoSpace(s: string) {
    forall i :: 0 <= i < |s| ==> !IsSpace(s[i])
  }

  /** Neither end of `s` is whitespace. */
  predicate IsStripped(s: string) {
    |s| == 0 || (!IsSpace(s[0]) && !IsSpace(s[|s| - 1]))
  }

  function TrimLeft(s: string): string {
    if |s| > 0 && IsSpace(s[0]) then TrimLeft(s[1..]) else s
  }

  function TrimRight(s: string): string {
    if |s| > 0 && IsSpace(s[|s| - 1]) then TrimRight(s[..|s| - 1]) else s
  }

  /** `TrimLeft` drops the leading whitespace and nothing else. */
  lemma {:induction false} TrimLeftShape(s: string)
    ensures var r := TrimLeft(s);
            && |r| <= |s| && r == s[|s| - |r|..]
            && AllSpace(s[..|s| - |r|])
            && (|r| > 0 ==> !IsSpace(r[0]))
  {
    if |s| > 0 && IsSpace(s[0]) {
      TrimLeftShape(s[1..]);
      var r := TrimLeft(s);
      assert s[..|s| - |r|] == [s[0]] + s[1..][..|s| - 1 - |r|];
    }
  }

  /** `TrimRight` drops the trailing whitespace and nothing else. */
  lemma {:induction false} TrimRightShape(s: string)
    ensures var r := TrimRight(s);
            && |r| <= |s| && r == s[..|r|]
            && AllSpace(s[|r|..])
            && (|r| > 0 ==> !IsSpace(r[|r| - 1]))
  {
    if |s| > 0 && IsSpace(s[|s| - 1]) {
      TrimRightShape(s[..|s| - 1]);
      var r := TrimRight(s);
      assert s[|r|..] == s[..|s| - 1][|r|..] + [s[|s| - 1]];
    }
  }

  /** `str.strip()`: whitespace removed from both ends. */
  function Strip(s: string): (r: string)
    ensures IsStripped(r)
    ensures |r| <= |s|
  {
    TrimLeftShape(s);
    TrimRightShape(TrimLeft(s));
    TrimRight(TrimLeft(s))
  }

  /**
   What `Strip` removes is whitespace and only whitespace: the input is the
   result with a run of whitespace on each side.
   */
  lemma StripShape(s: string)
    ensures exists pre, post :: s == pre + Strip(s) + post && AllSpace(pre) && AllSpace(post)
  {
    var pre, post := StripParts(s);
    assert s == pre + Strip(s) + post && AllSpace(pre) && AllSpace(post);
  }

  /** The whitespace `Strip` removes on the left and on the right, named. */
  lemma StripParts(s: string) returns (pre: string, post: string)
    ensures s == pre + Strip(s) + post
    ensures AllSpace(pre) && AllSpace(post)
  {
    var l := TrimLeft(s);
    TrimLeftShape(s);
    pre := s[..|s| - |l|];
    assert s == pre + l;
    var r := TrimRight(l);
    TrimRightShape(l);
    post := l[|r|..];
    assert l == r + post;
    assert Strip(s) == r;
    ConcatAssoc(pre, r, post);
  }

  /** Splicing the middle of a split back in. */
  lemma ConcatAssoc(a: string, b: string, c: string)
    ensures a + (b + c) == a + b + c
  {
  }

  lemma StripOfStripped(s: string)
    requires IsStripped(s)
    ensures Strip(s) == s
  {
  }

  /** Stripping twice is stripping once. */
  lemma StripIdempotent(s: string)
    ensures Strip(Strip(s)) == Strip(s)
  {
    StripOfStripped(Strip(s));
  }

  /** The first index of `c` in `s`, or `|s|` when `c` does not occur. */
  function Find(s: string, c: char): (r: nat)
    ensures r <= |s|
    ensures r < |s| ==> s[r] == c
    ensures forall i :: 0 <= i < r ==> s[i] != c
  {
    if |s| == 0 then 0
    else if s[0] == c then 0
    else 1 + Find(s[1..], c)
  }

  /**
   `s.partition(c)` when `c` occurs: the text before the first `c` and the
   text after it.
   */
  function Partition(s: string, c: char): (r: (string, string))
    requires c in s
    ensures s == r.0 + [c] + r.1
    ensures c !in r.0
  {
    var i := Find(s, c);
    (s[..i], s[i + 1..])
  }

  predicate IsDigit(c: char) {
    '0' <= c <= '9'
  }

  predicate AllDigits(s: string) {
    forall i :: 0 <= i < |s| ==> IsDigit(s[i])
  }

  function DigitChar(d: nat): (c: char)
    requires d < 10
    ensures IsDigit(c)
  {
    (48 + d) as char
  }

  function DigitValue(c: char): (d: nat)
    requires IsDigit(c)
    ensures d < 10 && DigitChar(d) == c
  {
    (c as int) - 48
  }

  /** The value of a run of decimal digits. */
  function DigitsValue(s: string): nat
    requires AllDigits(s)
  {
    if |s| == 0 then 0 else DigitsValue(s[..|s| - 1]) * 10 + DigitValue(s[|s| - 1])
  }

  /** `str(n)` for a non-negative integer: digits, no leading zero. */
  function Decimal(n: nat): (r: string)
    ensures |r| > 0 && AllDigits(r)
    ensures |r| > 1 ==> r[0] != '0'
  {
    if n < 10 then [DigitChar(n)] else Decimal(n / 10) + [DigitChar(n % 10)]
  }

  /** Reading back the digits `str(n)` writes gives `n`. */
  lemma {:induction false} DecimalRoundTrip(n: nat)
    ensures DigitsValue(Decimal(n)) == n
  {
    if n >= 10 {
      var d := Decimal(n);
      assert d[..|d| - 1] == Decimal(n / 10);
      DecimalRoundTrip(n / 10);
    }
  }

  /** `str(i)` for any integer. */
  function IntToString(i: int): (r: string)
    ensures |r| > 0
    ensures NoSpace(r)
  {
    if i < 0 then "-" + Decimal(-i) else Decimal(i)
  }

  /**
   `int(s)` on text: surrounding whitespace, an optional sign, then one or
   more decimal digits. `None` is the `ValueError` Python raises.
   */
  function ParseInt(s: string): Option<int> {
    ParseSignedDigits(Strip(s))
  }

  /** An optional sign and one or more decimal digits. */
  function ParseSignedDigits(t: string): Option<int> {
    if |t| > 0 && (t[0] == '-' || t[0] == '+') then
      match ParseDigits(t[1..])
      case Some(v) => Some(if t[0] == '-' then 0 - v else v)
      case None => None
    else
      ParseDigits(t)
  }

  /** One or more decimal digits and nothing else. */
  function ParseDigits(t: string): (r: Option<nat>)
    ensures r.Some? <==> |t| > 0 && AllDigits(t)
  {
    if |t| > 0 && AllDigits(t) then Some(DigitsValue(t)) else None
  }

  lemma StripNoSpace(s: string)
    requires NoSpace(s)
    ensures Strip(s) == s
  {
  }

  lemma ParseIntNegative(s: string)
    requires NoSpace(s) && |s| > 1 && s[0] == '-' && AllDigits(s[1..])
    ensures ParseInt(s) == Some(0 - DigitsValue(s[1..]))
  {
    StripNoSpace(s);
  }

  lemma DigitsNoSpace(s: string)
    requires AllDigits(s)
    ensures NoSpace(s)
  {
    forall i | 0 <= i < |s| ensures !IsSpace(s[i]) {
      assert IsDigit(s[i]);
    }
  }

  lemma SignedOfDigits(t: string)
    requires |t| > 0 && AllDigits(t)
    ensures ParseSignedDigits(t) == ParseDigits(t)
  {
    assert IsDigit(t[0]);
    assert t[0] != '-' && t[0] != '+';
  }

  lemma ParseIntDigits(s: string)
    requires |s| > 0 && AllDigits(s)
    ensures ParseInt(s) == Some(DigitsValue(s))
  {
    DigitsNoSpace(s);
    StripNoSpace(s);
    SignedOfDigits(s);
  }

  /** `int(str(i)) == i`. */
  lemma {:induction false} IntRoundTrip(i: int)
    ensures ParseInt(IntToString(i)) == Some(i)
  {
    var s := IntToString(i);
    if i < 0 {
      var d := Decimal(-i);
      assert s == "-" + d;
      assert s[1..] == d;
      DecimalRoundTrip(-i);
      ParseIntNegative(s);
    } else {
      DecimalRoundTrip(i);
      ParseIntDigits(s);
    }
  }

  function Pow10(k: nat): (r: nat)
    ensures r >= 1
  {
    if k == 0 then 1 else 10 * Pow10(k - 1)
  }

  /**
   An unsigned decimal numeral: digits, optionally followed by a point and
   more digits, or a point followed by digits.
   */
  function ParseUnsignedDecimal(t: string): Option<real> {
    var i := Find(t, '.');
    if i == |t| then
      match ParseDigits(t)
      case Some(v) => Some(v as real)
      case None => None
    else
      var whole := t[..i];
      var frac := t[i + 1..];
      if |whole| + |frac| > 0 && AllDigits(whole) && AllDigits(frac) then
        Some(DigitsValue(whole) as real + DigitsValue(frac) as real / Pow10(|frac|) as real)
      else
        None
  }

  /**
   `float(s)` on plain decimal text: surrounding whitespace, an optional sign
   and an unsigned decimal numeral. `None` is the `ValueError`.
   */
  function ParseFloat(s: string): Option<real> {
    ParseSignedDecimal(Strip(s))
  }

  /** An optional sign and an unsigned decimal numeral. */
  function ParseSignedDecimal(t: string): Option<real> {
    if |t| > 0 && (t[0] == '-' || t[0] == '+') then
      match ParseUnsignedDecimal(t[1..])
      case Some(v) => Some(if t[0] == '-' then -v else v)
      case None => None
    else
      ParseUnsignedDecimal(t)
  }

  lemma UnsignedOfDigits(t: string)
    requires |t| > 0 && AllDigits(t)
    ensures ParseUnsignedDecimal(t) == Some(DigitsValue(t) as real)
  {
    assert Find(t, '.') == |t|;
  }

  lemma SignedDecimalOfDigits(t: string)
    requires |t| > 0 && AllDigits(t)
    ensures ParseSignedDecimal(t) == ParseUnsignedDecimal(t)
  {
    assert IsDigit(t[0]);
    assert t[0] != '-' && t[0] != '+';
  }

  lemma ParseFloatDigits(s: string)
    requires |s| > 0 && AllDigits(s)
    ensures ParseFloat(s) == Some(DigitsValue(s) as real)
  {
    DigitsNoSpace(s);
    StripNoSpace(s);
    SignedDecimalOfDigits(s);
    UnsignedOfDigits(s);
  }

  /** `float(str(n)) == n` for a non-negative integer `n`. */
  lemma {:induction false} FloatOfDecimal(n: nat)
    ensures ParseFloat(Decimal(n)) == Some(n as real)
  {
    DecimalRoundTrip(n);
    ParseFloatDigits(Decimal(n));
  }

  /** `sep.join(xs)`. */
  function Join(xs: seq<string>, sep: string): (r: string)
    ensures |xs| == 1 ==> r == xs[0]
  {
    if |xs| == 0 then ""
    else if |xs| == 1 then xs[0]
    else xs[0] + sep + Join(xs[1..], sep)
  }
}

=== FILE: units.dfy ===
/**
 Price and amount units shared by the tools. Prices are basis points
 (`PRICE_PRECISION = 10000` is one dollar), amounts are raw USDC units with
 six decimals. Command-line prices and amounts arrive as decimal numbers and
 are converted with Python's `int(...)`, which truncates toward zero.
 */
module Units {

  /** `PRICE_PRECISION`: basis points per dollar. */
  const PricePrecision: int := 10000

  /** `USDC_DECIMALS`. */
  const UsdcDecimals: nat := 6

  /** `10 ** USDC_DECIMALS`: raw units per USDC. */
  const UsdcScale: int := 1000000

  /** `2 ** 256 - 1`, the unlimited ERC-20 allowance. */
  const MaxUint256: int := 0x1_0000_0000_0000_0000_0000_0000_0000_0000_0000_0000_0000_0000_0000_0000_0000_0000 - 1

  /** Python's `int(x)` on a float: truncation toward zero. */
  function Trunc(x: real): (r: int)
    ensures 0.0 <= x ==> 0 <= r && r as real <= x < r as real + 1.0
    ensures x < 0.0 ==> r <= 0 && r as real - 1.0 < x <= r as real
  {
    if x >= 0.0 then x.Floor else -((-x).Floor)
  }

  /** `int(price * PRICE_PRECISION)`. */
  function PriceToBps(price: real): int {
    Trunc(price * PricePrecision as real)
  }

  /** `int(amount * 10 ** USDC_DECIMALS)`. */
  function UsdcToRaw(amount: real): int {
    Trunc(amount * UsdcScale as real)
  }

  /** A price strictly between 0 and 1 becomes 0 to 9999 basis points. */
  lemma BpsOfValidPrice(price: real)
    requires 0.0 < price < 1.0
    ensures 0 <= PriceToBps(price) <= PricePrecision - 1
  {
  }

  /** A price below one basis point passes the range check yet truncates to 0 bps. */
  lemma TinyPriceTruncatesToZero()
    ensures PriceToBps(0.00005) == 0
  {
  }

  /** A price that is a whole number of basis points converts exactly. */
  lemma BpsRoundTrip(b: int)
    ensures PriceToBps(b as real / PricePrecision as real) == b
  {
    assert (b as real / 10000.0) * 10000.0 == b as real;
  }

  /** An amount that is a whole number of raw units converts exactly. */
  lemma RawRoundTrip(n: int)
    ensures UsdcToRaw(n as real / UsdcScale as real) == n
  {
    assert (n as real / 1000000.0) * 1000000.0 == n as real;
  }

  /** A positive amount gives a non-negative raw amount, zero exactly when below one raw unit. */
  lemma RawOfPositive(amount: real)
    requires amount > 0.0
    ensures UsdcToRaw(amount) >= 0
    ensures UsdcToRaw(amount) == 0 <==> amount < 1.0 / UsdcScale as real
  {
  }
}

=== FILE: vault_ops.dfy ===
/**
 On-chain vault and exchange actions (`tools/vault_ops.py`): read balances,
 deposit, withdraw, mint, merge and claim. The model stops at the
 transactions the tool decides to send. The chain is the `ChainView`
 record of reads taken before any transaction, and address checksumming is
 the parameter `checksum`.
 */
module VaultOps {
  import opened Base
  import opened Units
  import Config

  datatype Action = DepositAction | WithdrawAction | BalanceAction | MintAction | MergeAction | ClaimAction

  /** The six `--action` choices, in the order the parser lists them. */
  const ActionNames: seq<string> := ["deposit", "withdraw", "balance", "mint", "merge", "claim"]

  function ActionName(a: Action): string {
    match a
    case DepositAction => "deposit"
    case WithdrawAction => "withdraw"
    case BalanceAction => "balance"
    case MintAction => "mint"
    case MergeAction => "merge"
    case ClaimAction => "claim"
  }

  /** `argparse` choices: one of the six names, anything else rejected. */
  function ParseAction(s: string): (r: Option<Action>)
    ensures r.Some? ==> ActionName(r.value) == s
  {
    if s == "deposit" then Some(DepositAction)
    else if s == "withdraw" then Some(WithdrawAction)
    else if s == "balance" then Some(BalanceAction)
    else if s == "mint" then Some(MintAction)
    else if s == "merge" then Some(MergeAction)
    else if s == "claim" then Some(ClaimAction)
    else None
  }

  /** Exactly the six listed names are accepted, and each names its own action. */
  lemma ActionChoices(s: string, a: Action)
    ensures ParseAction(s).Some? <==> s in ActionNames
    ensures ParseAction(ActionName(a)) == Some(a)
  {
  }

  datatype VaultArgs = VaultArgs(action: Action, amount: Option<real>, marketId: Option<int>, address: Option<string>)

  /** The chain as read before any transaction. */
  datatype ChainView = ChainView(
    connected: bool,
    vaultBalance: string -> nat,
    walletBalance: string -> nat,
    allowance: (string, string) -> nat,
    yesShares: (int, string) -> nat,
    noShares: (int, string) -> nat)

  /** A transaction the tool sends. */
  datatype Tx =
    | Approve(spender: string, amount: int)
    | Deposit(amount: int)
    | Withdraw(amount: int)
    | MintShares(marketId: int, amount: int)
    | MergeShares(marketId: int, amount: int)
    | ClaimWinnings(marketId: int)

  datatype Shares = Shares(marketId: int, yes: nat, no: nat)

  datatype VaultOutcome =
    | BalanceReport(address: string, vaultRaw: nat, walletRaw: nat, shares: Option<Shares>)
    | Sent(action: Action, address: string, txs: seq<Tx>)
    | NothingToClaim(marketId: int)

  datatype VaultError =
    | RpcUnreachable
    | InvalidAddress(address: string)
    | MissingPrivateKey
    | AmountRequired
    | MarketIdRequired
    | OutOfAbiRange

  /** One past the largest `uint64`, the ABI type of every market id. */
  const Uint64Bound: int := 0x1_0000_0000_0000_0000

  /** One past the largest `uint128`, the ABI type of a share amount. */
  const Uint128Bound: int := 0x1_0000_0000_0000_0000_0000_0000_0000_0000

  /** A value web3 can encode for an unsigned ABI parameter below `bound`; any other makes it raise. */
  predicate FitsAbi(n: int, bound: int) {
    0 <= n < bound
  }

  /** No market id, or one that fits `uint64`. */
  predicate MarketIdFits(marketId: Option<int>) {
    marketId.None? || FitsAbi(marketId.value, Uint64Bound)
  }

  /** `args.amount is None or args.amount <= 0` is refused. */
  function RequireAmount(amount: Option<real>): (r: Result<int, VaultError>)
    ensures r.Ok? <==> amount.Some? && amount.value > 0.0
    ensures r.Ok? ==> r.value == UsdcToRaw(amount.value) && r.value >= 0
  {
    if amount.None? || amount.value <= 0.0 then Err(AmountRequired) else Ok(UsdcToRaw(amount.value))
  }

  function RequireMarketId(marketId: Option<int>): (r: Result<int, VaultError>)
    ensures r.Ok? <==> marketId.Some?
  {
    if marketId.None? then Err(MarketIdRequired) else Ok(marketId.value)
  }

  function Checksummed(address: string, checksum: string -> Option<string>): Result<string, VaultError> {
    match checksum(address)
    case Some(a) => Ok(a)
    case None => Err(InvalidAddress(address))
  }

  /** The deposit transactions: an unlimited approve first only when the allowance is short. */
  function DepositTxs(vault: string, allowance: nat, raw: int): (r: seq<Tx>)
    ensures |r| > 0 && r[|r| - 1] == Deposit(raw)
    ensures |r| == 2 <==> allowance < raw
    ensures |r| == 1 <==> allowance >= raw
    ensures |r| == 2 ==> r[0] == Approve(vault, MaxUint256)
  {
    (if allowance < raw then [Approve(vault, MaxUint256)] else []) + [Deposit(raw)]
  }

  /** The allowance a `Deposit` meets: the last approved amount, else the one read before. */
  function AllowanceAtDeposit(txs: seq<Tx>, allowance: int): int {
    if |txs| == 0 || txs[0].Deposit? then allowance
    else AllowanceAtDeposit(txs[1..], if txs[0].Approve? then txs[0].amount else allowance)
  }

  /**
   Whenever the raw amount fits in a `uint256`, the deposit meets enough
   allowance. An approve is sent only when the old allowance would not do.
   */
  lemma DepositIsCovered(vault: string, allowance: nat, raw: int)
    requires raw <= MaxUint256
    ensures AllowanceAtDeposit(DepositTxs(vault, allowance, raw), allowance) >= raw
    ensures DepositTxs(vault, allowance, raw)[0].Approve? ==> allowance < raw
  {
    var txs := DepositTxs(vault, allowance, raw);
    if allowance < raw {
      assert txs[1..] == [Deposit(raw)];
    }
  }

  /**
   The transactions and outcome of one write action for the key's address.
   Mint and merge check the market id before the amount. A market id
   outside `uint64` or a share amount outside `uint128` makes web3 raise
   before anything is sent. Claim sends nothing when both share balances
   are zero.
   */
  function WriteAction(action: Action, args: VaultArgs, address: string, vault: string, chain: ChainView): (r: Result<VaultOutcome, VaultError>)
    requires action != BalanceAction
    ensures (action == DepositAction || action == WithdrawAction) ==> (r.Ok? <==> RequireAmount(args.amount).Ok?)
    ensures (action == MintAction || action == MergeAction) ==>
              (r.Ok? <==> (&& args.marketId.Some? && RequireAmount(args.amount).Ok?
                           && FitsAbi(args.marketId.value, Uint64Bound)
                           && FitsAbi(RequireAmount(args.amount).value, Uint128Bound)))
    ensures (&& (action == MintAction || action == MergeAction) && args.marketId.Some? && RequireAmount(args.amount).Ok?
             && !(FitsAbi(args.marketId.value, Uint64Bound) && FitsAbi(RequireAmount(args.amount).value, Uint128Bound)))
            ==> r == Err(OutOfAbiRange)
    ensures (action == MintAction || action == MergeAction || action == ClaimAction) && args.marketId.None? ==> r == Err(MarketIdRequired)
    ensures action == ClaimAction ==> (r.Ok? <==> args.marketId.Some? && FitsAbi(args.marketId.value, Uint64Bound))
    ensures action == ClaimAction && args.marketId.Some? && !FitsAbi(args.marketId.value, Uint64Bound) ==> r == Err(OutOfAbiRange)
    ensures r.Ok? && r.value.Sent? ==> r.value.action == action && |r.value.txs| > 0
    ensures r.Ok? && r.value.NothingToClaim? ==>
              action == ClaimAction && chain.yesShares(r.value.marketId, address) == 0 && chain.noShares(r.value.marketId, address) == 0
    ensures action == DepositAction && r.Ok? ==>
              r.value == Sent(DepositAction, address, DepositTxs(vault, chain.allowance(address, vault), UsdcToRaw(args.amount.value)))
    ensures action == WithdrawAction && r.Ok? ==> r.value == Sent(WithdrawAction, address, [Withdraw(UsdcToRaw(args.amount.value))])
    ensures action == MintAction && r.Ok? ==>
              r.value == Sent(MintAction, address, [MintShares(args.marketId.value, UsdcToRaw(args.amount.value))])
    ensures action == MergeAction && r.Ok? ==>
              r.value == Sent(MergeAction, address, [MergeShares(args.marketId.value, UsdcToRaw(args.amount.value))])
    ensures action == ClaimAction && r.Ok? ==>
              (r.value.Sent? <==> chain.yesShares(args.marketId.value, address) != 0 || chain.noShares(args.marketId.value, address) != 0)
    ensures action == ClaimAction && r.Ok? && r.value.Sent? ==> r.value.txs == [ClaimWinnings(args.marketId.value)]
    ensures (action == DepositAction || action == WithdrawAction) && r.Err? ==> r == Err(AmountRequired)
    ensures action != ClaimAction && args.marketId.Some? && RequireAmount(args.amount).Err? ==> r == Err(AmountRequired)
  {
    match action
    case DepositAction =>
      var raw :- RequireAmount(args.amount);
      Ok(Sent(action, address, DepositTxs(vault, chain.allowance(address, vault), raw)))
    case WithdrawAction =>
      var raw :- RequireAmount(args.amount);
      Ok(Sent(action, address, [Withdraw(raw)]))
    case MintAction =>
      var mid :- RequireMarketId(args.marketId);
      var raw :- RequireAmount(args.amount);
      if !(FitsAbi(mid, Uint64Bound) && FitsAbi(raw, Uint128Bound)) then Err(OutOfAbiRange)
      else Ok(Sent(action, address, [MintShares(mid, raw)]))
    case MergeAction =>
      var mid :- RequireMarketId(args.marketId);
      var raw :- RequireAmount(args.amount);
      if !(FitsAbi(mid, Uint64Bound) && FitsAbi(raw, Uint128Bound)) then Err(OutOfAbiRange)
      else Ok(Sent(action, address, [MergeShares(mid, raw)]))
    case ClaimAction =>
      var mid :- RequireMarketId(args.marketId);
      if !FitsAbi(mid, Uint64Bound) then Err(OutOfAbiRange)
      else if chain.yesShares(mid, address) == 0 && chain.noShares(mid, address) == 0 then Ok(NothingToClaim(mid))
      else Ok(Sent(action, address, [ClaimWinnings(mid)]))
  }

  /**
   The balance report: `--address` when given, else the key's address,
   checksummed; shares only with a market id, whose read raises when the id
   does not fit `uint64`.
   */
  function BalanceOf(args: VaultArgs, cfg: Config.Settings, derive: string -> string,
                     checksum: string -> Option<string>, chain: ChainView): (r: Result<VaultOutcome, VaultError>)
    ensures r.Ok? ==> r.value.BalanceReport?
    ensures r.Ok? ==> r.value.vaultRaw == chain.vaultBalance(r.value.address)
                      && r.value.walletRaw == chain.walletBalance(r.value.address)
    ensures r.Ok? ==> (r.value.shares.Some? <==> args.marketId.Some?)
    ensures !TruthyText(args.address) && cfg.privateKey == "" ==> r == Err(MissingPrivateKey)
    ensures TruthyText(args.address) && r.Ok? ==> checksum(args.address.value) == Some(r.value.address)
    ensures TruthyText(args.address) ==> (r.Ok? <==> checksum(args.address.value).Some? && MarketIdFits(args.marketId))
    ensures TruthyText(args.address) && checksum(args.address.value).None? ==> r == Err(InvalidAddress(args.address.value))
    ensures !TruthyText(args.address) && cfg.privateKey != "" ==>
              && (r.Ok? <==> checksum(derive(cfg.privateKey)).Some? && MarketIdFits(args.marketId))
              && (r.Ok? ==> checksum(derive(cfg.privateKey)) == Some(r.value.address))
    ensures r.Ok? && args.marketId.Some? ==>
              r.value.shares == Some(Shares(args.marketId.value, chain.yesShares(args.marketId.value, r.value.address),
                                            chain.noShares(args.marketId.value, r.value.address)))
  {
    var address :-
      if TruthyText(args.address) then Checksummed(args.address.value, checksum)
      else if cfg.privateKey == "" then Err(MissingPrivateKey)
      else Checksummed(derive(cfg.privateKey), checksum);
    var _ :- if MarketIdFits(args.marketId) then Ok(()) else Err(OutOfAbiRange);
    var shares :=
      match args.marketId
      case Some(mid) => Some(Shares(mid, chain.yesShares(mid, address), chain.noShares(mid, address)))
      case None => None;
    Ok(BalanceReport(address, chain.vaultBalance(address), chain.walletBalance(address), shares))
  }

  /** The vault, exchange and USDC addresses of the configuration all checksum. */
  predicate ContractsChecksum(cfg: Config.Settings, checksum: string -> Option<string>) {
    checksum(cfg.vaultAddress).Some? && checksum(cfg.exchangeAddress).Some? && checksum(cfg.usdcAddress).Some?
  }

  /**
   `main`. The RPC connection and the three contract addresses are checked
   first. `balance` needs no key. Every other action needs the private key
   before its own arguments are looked at.
   */
  function Run(args: VaultArgs, cfg: Config.Settings, derive: string -> string,
               checksum: string -> Option<string>, chain: ChainView): (r: Result<VaultOutcome, VaultError>)
    ensures !chain.connected ==> r == Err(RpcUnreachable)
    ensures chain.connected && !ContractsChecksum(cfg, checksum) ==> r.Err? && r.error.InvalidAddress?
    ensures chain.connected && checksum(cfg.vaultAddress).None? ==> r == Err(InvalidAddress(cfg.vaultAddress))
    ensures chain.connected && checksum(cfg.vaultAddress).Some? && checksum(cfg.exchangeAddress).None?
            ==> r == Err(InvalidAddress(cfg.exchangeAddress))
    ensures (&& chain.connected && checksum(cfg.vaultAddress).Some? && checksum(cfg.exchangeAddress).Some?
             && checksum(cfg.usdcAddress).None?)
            ==> r == Err(InvalidAddress(cfg.usdcAddress))
    ensures args.action == BalanceAction && r.Ok? ==> r.value.BalanceReport?
    ensures chain.connected && ContractsChecksum(cfg, checksum) && args.action == BalanceAction
            ==> r == BalanceOf(args, cfg, derive, checksum, chain)
    ensures (&& chain.connected && ContractsChecksum(cfg, checksum) && args.action == BalanceAction
             && TruthyText(args.address))
            ==> (r.Ok? <==> checksum(args.address.value).Some? && MarketIdFits(args.marketId))
    ensures args.action != BalanceAction && chain.connected && cfg.privateKey == "" && ContractsChecksum(cfg, checksum)
            ==> r == Err(MissingPrivateKey)
    ensures args.action != BalanceAction && chain.connected && cfg.privateKey != "" && ContractsChecksum(cfg, checksum)
            ==> r == WriteAction(args.action, args, derive(cfg.privateKey), checksum(cfg.vaultAddress).value, chain)
    ensures args.action != BalanceAction && r.Ok? ==> !r.value.BalanceReport? && cfg.privateKey != ""
  {
    var _ :- if !chain.connected then Err(RpcUnreachable) else Ok(());
    var vault :- Checksummed(cfg.vaultAddress, checksum);
    var _ :- Checksummed(cfg.exchangeAddress, checksum);
    var _ :- Checksummed(cfg.usdcAddress, checksum);
    if args.action == BalanceAction then BalanceOf(args, cfg, derive, checksum, chain)
    else if cfg.privateKey == "" then Err(MissingPrivateKey)
    else WriteAction(args.action, args, derive(cfg.privateKey), vault, chain)
  }

  /**
   The agent's USDC as the standard ERC-20 and vault contracts account for
   it: wallet balance, vault balance and the vault's allowance. The
   contracts are not part of this model; this is the accounting their
   interfaces describe.
   */
  datatype Funds = Funds(wallet: nat, vault: nat, allowance: nat)

  /** One USDC transaction; `None` when it would be reverted or is a share transaction. */
  function Step(tx: Tx, f: Funds): Option<Funds> {
    match tx
    case Approve(_, n) => if n >= 0 then Some(Funds(f.wallet, f.vault, n)) else None
    case Deposit(n) =>
      if 0 <= n <= f.wallet && n <= f.allowance then Some(Funds(f.wallet - n, f.vault + n, f.allowance - n)) else None
    case Withdraw(n) => if 0 <= n <= f.vault then Some(Funds(f.wallet + n, f.vault - n, f.allowance)) else None
    case _ => None
  }

  /** Apply the USDC transactions in order; `None` when one of them fails. */
  function Apply(txs: seq<Tx>, f: Funds): Option<Funds>
    decreases |txs|
  {
    if |txs| == 0 then Some(f)
    else
      match Step(txs[0], f)
      case Some(g) => Apply(txs[1..], g)
      case None => None
  }

  /**
   A deposit the wallet can cover always goes through: the approve the tool
   adds when needed makes the allowance suffice, and exactly the amount
   moves from the wallet into the vault.
   */
  lemma DepositMovesFunds(args: VaultArgs, address: string, vault: string, chain: ChainView, f: Funds)
    requires args.action == DepositAction
    requires WriteAction(DepositAction, args, address, vault, chain).Ok?
    requires f.allowance == chain.allowance(address, vault)
    requires UsdcToRaw(args.amount.value) <= f.wallet && f.wallet <= MaxUint256
    ensures var raw := UsdcToRaw(args.amount.value);
            var g := Apply(WriteAction(DepositAction, args, address, vault, chain).value.txs, f);
            g.Some? && g.value.wallet == f.wallet - raw && g.value.vault == f.vault + raw
  {
    var raw := UsdcToRaw(args.amount.value);
    var txs := DepositTxs(vault, chain.allowance(address, vault), raw);
    assert WriteAction(DepositAction, args, address, vault, chain).value.txs == txs;
    assert raw >= 0;
    var after := Funds(f.wallet - raw, f.vault + raw, if f.allowance < raw then MaxUint256 - raw else f.allowance - raw);
    assert Apply([Deposit(raw)], if f.allowance < raw then Funds(f.wallet, f.vault, MaxUint256) else f)
           == Apply([], after);
    if f.allowance < raw {
      assert txs == [Approve(vault, MaxUint256), Deposit(raw)];
      assert txs[1..] == [Deposit(raw)];
      var approved := Funds(f.wallet, f.vault, MaxUint256);
      assert Step(txs[0], f) == Some(approved);
      assert Step(Deposit(raw), approved) == Some(Funds(f.wallet - raw, f.vault + raw, MaxUint256 - raw));
    } else {
      assert txs == [Deposit(raw)];
    }
  }

  /**
   Depositing an amount and then withdrawing the same amount, each as the
   tool sends it, leaves the wallet and the vault as they were.
   */
  lemma DepositThenWithdrawRestores(amount: real, address: string, vault: string, chain: ChainView, f: Funds)
    requires amount > 0.0
    requires f.allowance == chain.allowance(address, vault)
    requires UsdcToRaw(amount) <= f.wallet && f.wallet <= MaxUint256
    ensures var dep := WriteAction(DepositAction, VaultArgs(DepositAction, Some(amount), None, None), address, vault, chain);
            var wd := WriteAction(WithdrawAction, VaultArgs(WithdrawAction, Some(amount), None, None), address, vault, chain);
            && dep.Ok? && wd.Ok?
            && var g := Apply(dep.value.txs + wd.value.txs, f);
               g.Some? && g.value.wallet == f.wallet && g.value.vault == f.vault
  {
    var depArgs := VaultArgs(DepositAction, Some(amount), None, None);
    var dep := WriteAction(DepositAction, depArgs, address, vault, chain);
    var wd := WriteAction(WithdrawAction, VaultArgs(WithdrawAction, Some(amount), None, None), address, vault, chain);
    var raw := UsdcToRaw(amount);
    DepositMovesFunds(depArgs, address, vault, chain, f);
    var mid := Apply(dep.value.txs, f).value;
    ApplyAppend(dep.value.txs, wd.value.txs, f);
    assert wd.value.txs == [Withdraw(raw)];
    assert Apply([Withdraw(raw)], mid) == Some(Funds(mid.wallet + raw, mid.vault - raw, mid.allowance));
  }

  /** Applying two batches in turn is applying their concatenation. */
  lemma {:induction false} ApplyAppend(a: seq<Tx>, b: seq<Tx>, f: Funds)
    requires Apply(a, f).Some?
    ensures Apply(a + b, f) == Apply(b, Apply(a, f).value)
    decreases |a|
  {
    if |a| == 0 {
      assert a + b == b;
    } else {
      assert (a + b)[0] == a[0];
      assert (a + b)[1..] == a[1..] + b;
      ApplyAppend(a[1..], b, Step(a[0], f).value);
    }
  }

  /** `balance` sends no transaction, whatever its arguments. */
  lemma BalanceIsReadOnly(args: VaultArgs, cfg: Config.Settings, derive: string -> string,
                          checksum: string -> Option<string>, chain: ChainView)
    requires args.action == BalanceAction
    ensures Run(args, cfg, derive, checksum, chain).Ok? ==> !Run(args, cfg, derive, checksum, chain).value.Sent?
  {
  }

  /** A claim with no shares of either side reports success and sends nothing. */
  lemma EmptyClaimSendsNothing(args: VaultArgs, cfg: Config.Settings, derive: string -> string,
                               checksum: string -> Option<string>, chain: ChainView)
    requires args.action == ClaimAction && args.marketId.Some? && FitsAbi(args.marketId.value, Uint64Bound)
    requires chain.connected && cfg.privateKey != ""
    requires checksum(cfg.vaultAddress).Some? && checksum(cfg.exchangeAddress).Some? && checksum(cfg.usdcAddress).Some?
    requires chain.yesShares(args.marketId.value, derive(cfg.privateKey)) == 0
    requires chain.noShares(args.marketId.value, derive(cfg.privateKey)) == 0
    ensures Run(args, cfg, derive, checksum, chain) == Ok(NothingToClaim(args.marketId.value))
  {
  }
}
